=== FILE: README.md ===
# Recursive media scanner and pick history, in Dafny

This project models two parts of the APhotoManager Android app and proves
properties about them.

**The recursive media scanner** (`RecursiveMediaScanner`) is a background
task. It walks one or more start paths depth first. For every listable
directory it hands the directory's JPEG children to the indexer as one
batch, then descends into the directory's non-hidden sub-directories. The
scan can be cancelled at any entry. When a pending list (`mPaused`) was
requested, each entry the walk finds cancelled is appended to that list by
its canonical path. When the cancelled scan ends, and the process-wide slot
`sScanner` still names it or names nothing, a pending successor holding the
list takes the slot; `resumeIfNeccessary` starts it. The slot names the
current or resumable scan.

**The pick history** (`GeoPickHistory`) is a bounded list of recently picked
geo points. `remove` drops entries with the same id or position, `add`
appends a new entry and trims the oldest, and `addKeysTo` exports the
parsable ids into a collection without duplicates.

Modules:

- `Wrappers`: `Option`.
- `FileTree`: the file system as the scanner sees it.
  - Each entry carries its name and the result of canonicalising its path.
  - A directory whose listing calls answer `null` is not listable.
  - `Reaches` says which entries a walk visits.
- `Walker`: the walk (`scanDirOrFile`, `runScanner`) and the background task (`doInBackground`).
  - It is a pure function over the scanner fields it writes.
  - It returns the change count, the batches handed to the indexer, and the entries found cancelled.
  - Cancellation is a monotone oracle: `SetFrom(k)` means the k-th cancellation check and every later one find the task cancelled.
- `ScanReference`: a declarative reference definition of the batches an uncancelled scan issues, in preorder over the tree.
- `WalkFacts`: how the walk relates to the reference definition.
  - Bookkeeping: the count and the pending list.
  - Splitting: the batches issued before cancellation, followed by a full walk of the entries found cancelled, are exactly the uncancelled walk's batches.
- `PauseResume`: pause completeness. When every canonical path names its entry again (`CanonicalNamesEntry`), a resumed walk over the pending list issues exactly the missing batches.
- `Lifecycle`: the scanner instances and the slot.
  - Covers `onStatusDialogEnd`, `resumeIfNeccessary`, `handleScannerCancel`, `onPostExecute`, `onCancelled` and `getBusyScanner`.
  - Also covers the platform's completion of a task.
- `LifecycleFacts`: properties across several operations.
  - Slot liveness.
  - Full stop.
  - A lost race.
  - The pause-and-resume chain issuing exactly the batches of one uninterrupted scan, when every canonical path names its entry again (`CanonicalNamesEntry`).
- `JavaLong`: `Long.toString` and `Long.parseLong`, so that an id written by `add` can be proved to be read back by `addKeysTo`.
- `PickHistory`: `remove`, `add` and `addKeysTo`.
  - A Java exception is an outcome that carries the list as the exception leaves it.

Collaborators whose code is not part of this model are parameters:

- The image-name filter `MediaScanner.isJpeg` and the single-folder indexer are the `Env` parameter.
- `new File(path)` is the `resolve` parameter.
- `FileUtils.tryGetCanonicalPath` is the `canonical` field of an entry.
- The point at which the background thread first sees a cancel request is the `observedAt` parameter of `Lifecycle.Run`.

## Model

| member | source | states |
|---|---|---|
| FileTree.JpegPaths | app/src/main/java/de/k3b/android/util/RecursiveMediaScanner.java:93-105 | The batch of a listed directory holds `parent + "/" + name` for exactly the children whose name the image filter accepts, and nothing else. |
| Walker.RootPaths | app/src/main/java/de/k3b/android/util/RecursiveMediaScanner.java:74-78 | Every path the walk starts from is non-empty. Which paths, and in what order, is stated by `Walker.RootPathsMembers` and `Walker.RootPathsAppend`. |
| Walker.RootPathsAppend | app/src/main/java/de/k3b/android/util/RecursiveMediaScanner.java:74-78 | The arrays of a request are walked one after another, in order: the paths of a concatenated request are those of its first part followed by those of its second, each as often as it occurs. |
| Walker.RootPathsMembers | app/src/main/java/de/k3b/android/util/RecursiveMediaScanner.java:74-78 | A path is walked if and only if it is a non-null, non-empty path inside a non-null array of the request. |
| Walker.NonEmptyPaths | app/src/main/java/de/k3b/android/util/RecursiveMediaScanner.java:76-78 | Every path kept from one array is non-empty. Which paths, and in what order, is stated by `Walker.NonEmptyPathsMembers` and `Walker.NonEmptyPathsAppend`. |
| Walker.NonEmptyPathsAppend | app/src/main/java/de/k3b/android/util/RecursiveMediaScanner.java:76-78 | The paths of one array are walked in array order: the kept paths of a concatenation are those of its first part followed by those of its second, so duplicates stay and nothing is reordered. |
| Walker.NonEmptyPathsMembers | app/src/main/java/de/k3b/android/util/RecursiveMediaScanner.java:76-78 | Within one array, a path is kept if and only if it is a non-null, non-empty entry of the array. |
| Walker.AsRequest | app/src/main/java/de/k3b/android/util/RecursiveMediaScanner.java:138 | The pending list becomes a request of one array holding the same paths in the same order. |
| FileTree.IsHidden | app/src/main/java/de/k3b/android/util/RecursiveMediaScanner.java:113 | A name is hidden when it starts with a dot. Its effect on the walk is stated by `ScanReference.FullReaches`: nothing below a hidden directory is indexed. |
| FileTree.IsSubDir | app/src/main/java/de/k3b/android/util/RecursiveMediaScanner.java:109-114 | The children the walk descends into: directories whose name is not hidden. Stated by `ScanReference.FullReaches` and `WalkFacts.ScanSplits`. |
| Walker.RunScanner | app/src/main/java/de/k3b/android/util/RecursiveMediaScanner.java:146-153 | One indexer call; its effect on the current folder and `mCount` is stated by `WalkFacts.RunScannerAccounts`. |
| Walker.Scan | app/src/main/java/de/k3b/android/util/RecursiveMediaScanner.java:87-132 | The walk of one entry. Its bookkeeping is stated by `WalkFacts.ScanAccounts`, and its batches, against the reference walk, by `WalkFacts.ScanSplits` and `WalkFacts.UncancelledWalk`. |
| Walker.ScanChildren | app/src/main/java/de/k3b/android/util/RecursiveMediaScanner.java:116-123 | The walk of a directory's non-null children, of which only non-hidden sub-directories are entered. Stated by `WalkFacts.ChildrenAccounts` and `WalkFacts.ChildrenSplits`. |
| Walker.ScanNodes | app/src/main/java/de/k3b/android/util/RecursiveMediaScanner.java:74-83 | The walk over the start entries one after another, each continuing from the fields the previous one left. Stated by `WalkFacts.NodesAccounts` and `WalkFacts.NodesSplit`. |
| Walker.DoInBackground | app/src/main/java/de/k3b/android/util/RecursiveMediaScanner.java:72-85 | The background task over all walked paths. Its total and batches are stated by `WalkFacts.NodesAccounts`, `WalkFacts.UncancelledWalk` and `PauseResume.PauseThenResume`. |
| ScanReference.OwnBatch | app/src/main/java/de/k3b/android/util/RecursiveMediaScanner.java:89-126 | An entry issues at most one batch by itself, and that batch is filed under the entry's canonical path. |
| ScanReference.FullReaches | app/src/main/java/de/k3b/android/util/RecursiveMediaScanner.java:87-132 | A batch belongs to an uncancelled scan of an entry if and only if it is the own batch of an entry the walk reaches. Hidden sub-directories, and everything below them, contribute nothing. |
| WalkFacts.RunScannerAccounts | app/src/main/java/de/k3b/android/util/RecursiveMediaScanner.java:146-153 | `runScanner` makes the batch's folder the current one and adds the indexer's result to `mCount`. `mCount` never decreases. |
| WalkFacts.ScanAccounts | app/src/main/java/de/k3b/android/util/RecursiveMediaScanner.java:87-132 | The returned total is the sum of the batch results, and `mCount` grows by exactly that total. `mPaused` grows by the canonical paths of the entries found cancelled, in order, and only when it was non-null. The current folder is that of the last batch. |
| WalkFacts.NodesAccounts | app/src/main/java/de/k3b/android/util/RecursiveMediaScanner.java:72-85 | The same bookkeeping holds for the walk over all start entries, in order. |
| WalkFacts.ScanSplits | app/src/main/java/de/k3b/android/util/RecursiveMediaScanner.java:87-132 | Once cancellation is seen, no further batch is issued. The batches issued, followed by the uncancelled batches of the entries found cancelled, are exactly the batches of an uncancelled walk. Every entry found cancelled is reached from the start entry. |
| WalkFacts.NodesSplit | app/src/main/java/de/k3b/android/util/RecursiveMediaScanner.java:72-132 | The same split holds for the walk over all start entries. Each entry found cancelled is reached from some start entry. |
| WalkFacts.UncancelledWalk | app/src/main/java/de/k3b/android/util/RecursiveMediaScanner.java:72-132 | Without cancellation, the walk stops nowhere and issues exactly the reference batches. Its total is the sum of the indexer's results over them. |
| PauseResume.RootPathsOfPending | app/src/main/java/de/k3b/android/util/RecursiveMediaScanner.java:136-138 | A pending list of non-empty paths, started as a request, is walked path by path in its own order. |
| PauseResume.PauseExtendsPending | app/src/main/java/de/k3b/android/util/RecursiveMediaScanner.java:127-128 | A walk started with a pending list ends, whenever it is cancelled, with that list still present and extended: the old list is a prefix of the new one. |
| PauseResume.PauseThenResume | app/src/main/java/de/k3b/android/util/RecursiveMediaScanner.java:125-128 | Pause completeness, with the cancel seen at any point, for a file system in which every canonical path names its entry again (`CanonicalNamesEntry`). The cancelled walk followed by a fresh walk over the paths it appended to `mPaused` issues exactly the batches of one uncancelled walk: nothing is lost and nothing is indexed twice. |
| PauseResume.PauseThenResumeChanges | app/src/main/java/de/k3b/android/util/RecursiveMediaScanner.java:73-82 | Under the same condition, the cancelled walk and the resumed walk together report exactly the changes of one uncancelled walk. |
| PauseResume.WalkOfOnePath | app/src/main/java/de/k3b/android/util/RecursiveMediaScanner.java:72-85 | A request holding one path walks exactly the entry that path names. |
| PauseResume.SymlinkedImageRootLost | app/src/main/java/de/k3b/android/util/RecursiveMediaScanner.java:122-128 | A start path `pic.jpg` linking to `/data/blob` is indexed by an uncancelled walk, but when paused at its check it is recorded as `/data/blob`, whose name the image filter rejects, so the resumed walk indexes nothing: the condition of `PauseThenResume` fails and the image is lost. |
| PauseResume.PauseBetweenSiblings | app/src/main/java/de/k3b/android/util/RecursiveMediaScanner.java:87-132 | For `/a` holding `/a/x` and `/a/y`, cancelled right after `/a/x` is indexed, the pending list is exactly `/a/y`. |
| Lifecycle.ClearIfCurrent | app/src/main/java/de/k3b/android/util/RecursiveMediaScanner.java:161-163 | The slot is cleared only when it names this instance. Otherwise it is left alone. |
| Lifecycle.Create | app/src/main/java/de/k3b/android/util/RecursiveMediaScanner.java:67-69 | A new instance gets the next identity and starts pending, not cancelled, without a pending list and with empty statistics. No other instance and not the slot change. |
| Lifecycle.Execute | app/src/main/java/de/k3b/android/util/RecursiveMediaScanner.java:138 | `execute` succeeds exactly on a pending task and makes it running, changing nothing else. |
| Lifecycle.GetBusyScanner | app/src/main/java/de/k3b/android/util/RecursiveMediaScanner.java:190-195 | The answer is present if and only if the slot names an instance that is running, and then it is that instance. |
| Lifecycle.OnStatusDialogEnd | app/src/main/java/de/k3b/android/util/RecursiveMediaScanner.java:258-265 | A cancel request sets `mPaused` to the given pause state and cancels the task. It clears the slot only if the slot names this instance. Other instances are untouched, and without a cancel request nothing changes. |
| Lifecycle.ResumeIfNeccessary | app/src/main/java/de/k3b/android/util/RecursiveMediaScanner.java:135-143 | The answer is true if and only if the instance is pending and holds a pending list. It then runs with that list as its request and drops the list. Otherwise nothing changes. |
| Lifecycle.HandleScannerCancel | app/src/main/java/de/k3b/android/util/RecursiveMediaScanner.java:168-181 | A successor is created if and only if a pending list exists and the slot names this instance or nothing. The successor is pending, is named "resumed " plus the reason, holds the same list and takes the slot. Without a successor the slot is cleared only if it named this instance. |
| Lifecycle.OnPostExecute | app/src/main/java/de/k3b/android/util/RecursiveMediaScanner.java:155-166 | A cancelled instance is handled as a cancellation. Otherwise the slot is cleared only if it names this instance, and nothing else changes. |
| Lifecycle.OnCancelled | app/src/main/java/de/k3b/android/util/RecursiveMediaScanner.java:183-187 | After `onCancelled` the slot no longer names the instance, and existing instances are unchanged. It is exactly `handleScannerCancel`. |
| Lifecycle.Finish | app/src/main/java/de/k3b/android/util/RecursiveMediaScanner.java:155-187 | After completion the instance is finished, no other instance changes, and the slot does not name the instance. |
| Lifecycle.Run | app/src/main/java/de/k3b/android/util/RecursiveMediaScanner.java:72-153 | The background run changes only its own instance. It adds the walk's total to `mCount` and appends the canonical paths of the cancelled entries to `mPaused`. Status, the cancel flag and the slot stay as they were. |
| LifecycleFacts.OperationsKeepSlotLive | app/src/main/java/de/k3b/android/util/RecursiveMediaScanner.java:155-195 | After construction, a cancel request, a resume, a run or a completion, the slot never names a finished instance. |
| LifecycleFacts.FinishKeepsSlotLive | app/src/main/java/de/k3b/android/util/RecursiveMediaScanner.java:168-181 | Completion leaves the slot either empty or on an unfinished instance, which may be a new successor. |
| LifecycleFacts.CreateThenExecute | app/src/main/java/de/k3b/android/util/RecursiveMediaScanner.java:67-69 | A freshly created instance can be executed once; it then runs, a second `execute` fails, and it is the busy scanner only once it is installed in the slot. |
| LifecycleFacts.ResumeAtMostOnce | app/src/main/java/de/k3b/android/util/RecursiveMediaScanner.java:135-143 | After a successful resume, a second resume of the same instance does nothing. |
| LifecycleFacts.FullStopLeavesNothing | app/src/main/java/de/k3b/android/util/RecursiveMediaScanner.java:168-181 | A full stop (cancel with a null pause state) creates no successor and leaves no pending list. The slot is cleared only if it named the instance. If the slot named the instance or nothing, nothing is busy afterwards. |
| LifecycleFacts.RaceLostKeepsSlot | app/src/main/java/de/k3b/android/util/RecursiveMediaScanner.java:169-180 | If another instance already holds the slot when a cancelled instance completes, no successor is created and the slot keeps naming the other instance. |
| LifecycleFacts.PauseInstallsSuccessor | app/src/main/java/de/k3b/android/util/RecursiveMediaScanner.java:168-181 | Pausing the current scan installs exactly one successor in the slot. The successor is pending, not busy, and holds the collected list. Resuming it makes it the busy scanner, running on that list. |
| LifecycleFacts.PauseChainCompletesScan | app/src/main/java/de/k3b/android/util/RecursiveMediaScanner.java:127-143 | For a file system in which every canonical path names its entry again, the paused instance's walk and its resumed successor's walk together issue exactly the batches, and report exactly the changes, of one uninterrupted scan of the request. |
| JavaLong.ToString | app/src/main/java/de/k3b/geo/io/GeoPickHistory.java:48 | The text of an id is non-empty and starts with a minus sign if and only if the id is negative. |
| JavaLong.ParseLong | app/src/main/java/de/k3b/geo/io/GeoPickHistory.java:77 | A parsed text is non-empty, and a negative value comes only from a text with a leading minus sign. |
| JavaLong.ParseLongRejects | app/src/main/java/de/k3b/geo/io/GeoPickHistory.java:77 | A text with a character other than a decimal digit after its optional sign does not parse. |
| JavaLong.DecimalValue | app/src/main/java/de/k3b/geo/io/GeoPickHistory.java:48 | The decimal text of a non-negative number consists of digits and has exactly that value. |
| JavaLong.ParseToString | app/src/main/java/de/k3b/geo/io/GeoPickHistory.java:77 | Parsing the text written for any `long` gives that `long` back. |
| PickHistory.Key | app/src/main/java/de/k3b/geo/io/GeoPickHistory.java:48 | The key text exists if and only if the id exists. |
| PickHistory.Remove | app/src/main/java/de/k3b/geo/io/GeoPickHistory.java:46-58 | A null list stays null. If no element makes `compareTo` throw, the result is the list filtered by the match rule. Otherwise `compareTo` throws at the last such element: the elements after it are filtered and the rest are untouched. |
| PickHistory.Judge | app/src/main/java/de/k3b/geo/io/GeoPickHistory.java:50-53 | The match rule of `remove` for one element. Its consequences are stated by `PickHistory.SurvivorsKept`, `PickHistory.SurvivorsMatchNothing` and `PickHistory.LastFailure`. |
| PickHistory.SurvivorsAppend | app/src/main/java/de/k3b/geo/io/GeoPickHistory.java:49-56 | The filter acts element by element. It distributes over concatenation, so kept elements keep their relative order. |
| PickHistory.SurvivorsCounts | app/src/main/java/de/k3b/geo/io/GeoPickHistory.java:49-56 | Every element that does not match is kept as often as it occurs, and no matching element is kept. |
| PickHistory.SurvivorsKept | app/src/main/java/de/k3b/geo/io/GeoPickHistory.java:51-54 | Every element kept is one that does not match. |
| PickHistory.SurvivorsMatchNothing | app/src/main/java/de/k3b/geo/io/GeoPickHistory.java:49-56 | After `remove`, no element is null, none lies at the removed position, and none carries the removed key. |
| PickHistory.LastFailure | app/src/main/java/de/k3b/geo/io/GeoPickHistory.java:49-53 | This is the position of the last element whose comparison throws: no later element throws, and -1 means none throws. |
| PickHistory.NoFailureIff | app/src/main/java/de/k3b/geo/io/GeoPickHistory.java:49-53 | `remove` completes normally if and only if no element makes the comparison throw. |
| PickHistory.Newest | app/src/main/java/de/k3b/geo/io/GeoPickHistory.java:65 | Trimming keeps the newest `maxSize` elements as a suffix, in order, and keeps all of them when there are no more than that. |
| PickHistory.Add | app/src/main/java/de/k3b/geo/io/GeoPickHistory.java:61-67 | When `remove` throws, the exception propagates and the list is the one `remove` left: untouched up to the last element whose id is null, filtered behind it. With a non-negative bound the result is the filtered list plus the new entry, trimmed from the front to the bound. With a negative bound the list is emptied and `remove(0)` then throws. |
| PickHistory.NewEntry | app/src/main/java/de/k3b/geo/io/GeoPickHistory.java:64 | The entry `add` appends, carrying the id text and the position. `PickHistory.AddedEntryIsNewestAndUnique` states that it ends last and unique. |
| PickHistory.AddedEntryIsNewestAndUnique | app/src/main/java/de/k3b/geo/io/GeoPickHistory.java:62-65 | With a bound of at least one, the list holds between one and `maxSize` elements. The last element is the new entry, and every other element is one the match rule keeps, so no other entry shares its position or id. |
| PickHistory.KeyOf | app/src/main/java/de/k3b/geo/io/GeoPickHistory.java:74-79 | An element contributes at most one key. |
| PickHistory.Usable | app/src/main/java/de/k3b/geo/io/GeoPickHistory.java:74-84 | The elements `addKeysTo` keeps: those without a non-empty id, and those whose id parses. Stated by `PickHistory.UsableItemsCounts`. |
| PickHistory.UsableItemsCounts | app/src/main/java/de/k3b/geo/io/GeoPickHistory.java:75-85 | `addKeysTo` keeps every element without an id, or with an empty or parsable id, as often as it occurs. It drops every element whose non-empty id does not parse. |
| PickHistory.Collect | app/src/main/java/de/k3b/geo/io/GeoPickHistory.java:78-79 | Adding each key unless the destination already holds it. Stated by `PickHistory.CollectFacts`. |
| PickHistory.CollectFacts | app/src/main/java/de/k3b/geo/io/GeoPickHistory.java:78-80 | Collecting keeps the destination's earlier contents at the front. It holds exactly the keys of the destination and of the list, and adds no duplicate. |
| PickHistory.VisitEntry | app/src/main/java/de/k3b/geo/io/GeoPickHistory.java:73-84 | One step of the backwards loop at index `i`: afterwards the list is untouched before `i` and holds only usable elements (no id, or a parsable one) from `i` on, and the destination has gained the keys from `i` on, newest first, each unless already present. This holds when `dest` is non-null and its `contains` and `add` never throw (see "## Left out"). |
| PickHistory.AddKeysFrom | app/src/main/java/de/k3b/geo/io/GeoPickHistory.java:71-86 | The loop over a non-null list: the list ends as its usable elements in order, and the destination has gained the parsed keys, newest first, each unless already present. This holds when `dest` is non-null and its `contains` and `add` never throw (see "## Left out"). |
| PickHistory.AddKeysTo | app/src/main/java/de/k3b/geo/io/GeoPickHistory.java:70-89 | A null list leaves everything unchanged. Otherwise the list becomes its usable elements, and the destination gains each parsed key, newest first, that it did not already hold. This holds when `dest` is non-null and its `contains` and `add` never throw (see "## Left out"). |
| PickHistory.KeysNewestFirstMembers | app/src/main/java/de/k3b/geo/io/GeoPickHistory.java:72-80 | A key is exported if and only if some element of the list has that parsable id. |
| PickHistory.AddedIdIsExported | app/src/main/java/de/k3b/geo/io/GeoPickHistory.java:61-89 | After a successful `add` of an id, `addKeysTo` exports that id and keeps the new entry. |

## Left out

- The status dialog, its timer polling and the dialog and timer part of `onStatusDialogEnd` (RecursiveMediaScanner.java:197-256) are Android UI. Dialogs.java and LogCat.java are UI and process/file plumbing.
- AsyncTask threading and the unsynchronised reads of `mCurrentFolder`, `mCount` and `mPaused` are not modelled.
  - Operations are sequential steps.
  - The instant the walker sees a cancel request is a parameter (`observedAt`).
  - `cancel(false)` never interrupts the walker.
- `Lifecycle.Run`: the indexer is assumed always to answer a number. A null answer would skip the `mCount` update in `runScanner` (line 149) and then throw when `scanDirOrFile` unboxes it (lines 106, 125). The indexer's own error handling belongs to `MediaScanner`, which is not part of this model.
- `WalkFacts.ScanAccounts`: `mCount` and the returned totals are unbounded integers. Java's 32-bit `int` wrap-around is not modelled.
- The two listing calls of a directory (`list` and `listFiles`) are assumed to both answer `null` or both succeed, in the same order.
- The file system is a finite tree, so symbolic-link cycles are not modelled. The file system is assumed not to change during a scan.
- `PauseResume.PauseThenResume`: proved only when every canonical path names its entry again (`CanonicalNamesEntry`). A symbolic link whose name passes the image filter but whose target's name does not breaks this, and then the source loses that image on pause (`PauseResume.SymlinkedImageRootLost`).
- `PauseResume.PauseThenResumeChanges`: proved under the same `CanonicalNamesEntry` condition.
- `LifecycleFacts.PauseChainCompletesScan`: proved under the same `CanonicalNamesEntry` condition.
- `FileUtils.tryGetCanonicalPath`, `MediaScanner.isJpeg` and the indexer are parameters, so their own behaviour is not modelled.
- `PauseResume.PauseThenResumeChanges`: the indexer (`Env.index`) is a function of the batch alone, so indexing the same batch again gives the same count. A real indexer depends on the media database, which changes between the two calls.
- Installing a new scan in `sScanner` when a scan is first started is done by callers outside these files. `Lifecycle.Create` does not install it.
- The persistence of the pick history (`GeoFileRepository` load and save) and the log line in `addKeysTo` are left out. `mData` and `mMaxSize` are inputs.
- Coordinates are an abstract type with equality. Java's `==` on `double` differs for NaN and for the two zeros.
- `JavaLong.ParseLong`: only ASCII digits are accepted. `Long.parseLong` also accepts other Unicode decimal digits through `Character.digit`.
- `PickHistory.AddKeysTo`: the destination `Collection` is a sequence with `contains` and append. Set-like destinations, which may reorder, are not distinguished.
- `PickHistory.AddKeysTo`: `dest` is assumed non-null, and its `contains` and `add` never throw. Otherwise the catch at GeoPickHistory.java:81-84 also catches that failure and removes elements whose id parses. For a null `dest`, every element with a non-empty id is removed and nothing is added.
- `PickHistory.AddKeysFrom`: relies on the same assumption that `dest` is non-null and that its `contains` and `add` never throw.
- `PickHistory.VisitEntry`: relies on the same assumption that `dest` is non-null and that its `contains` and `add` never throw.
- `PickHistory.Remove`: takes the key text `Key(id)` instead of the id, as the method computes it on entry (line 48). The only exception modelled is the `NullPointerException` from `compareTo` with a null id.

## Notes on the source

- The walk checks `isCancelled()` once per entry that has a canonical path (RecursiveMediaScanner.java:91). It records the entry as pending only at that check (lines 127-128), before anything under the entry was indexed. So a resumed walk repeats nothing: when every canonical path names its entry again (`CanonicalNamesEntry`), `PauseResume.PauseThenResume` proves the two walks together issue each batch exactly once.
- An entry is recorded by its canonical path (line 128), while the image filter for a start file looks at the name of the `File` it was given (line 124). For a start path that is a symbolic link to a file whose own name is not an image name, a pause loses that image: `PauseResume.SymlinkedImageRootLost` shows the walk that does it.
- The scanner has no state field of its own. The model uses the task status the code reads (lines 136 and 191) together with the cancel flag and `mPaused`.

=== FILE: filetree.dfy ===
/**
  The file system as the recursive scanner sees it: a tree of entries, each
  with the name its `File` object reports and the result of canonicalising it.
 */
module FileTree {
  import opened Wrappers

  /**
    One file-system entry.
    - `name` is what `File.getName()` reports for the entry.
    - `canonical` is the result of canonicalising the entry's path; `None`
      when canonicalisation fails.
    - A `Dir` with `listable == false` is a directory whose listing calls
      answer `null`; its `children` are then never looked at.
    - `NonDir` stands for anything that is not a directory: a regular file,
      or a path that does not exist.
   */
  datatype Node =
    | Dir(name: string, canonical: Option<string>, listable: bool, children: seq<Node>)
    | NonDir(name: string, canonical: Option<string>)

  /** The fixed hidden-entry rule: the name starts with a dot. */
  predicate IsHidden(name: string) {
    |name| > 0 && name[0] == '.'
  }

  /** A child the walk descends into: a directory whose name is not hidden. */
  predicate IsSubDir(c: Node) {
    c.Dir? && !IsHidden(c.name)
  }

  /** The absolute path of a child named `name` inside the folder `parent`. */
  function ChildPath(parent: string, name: string): (r: string)
    ensures |r| == |parent| + 1 + |name|
    ensures r[..|parent|] == parent && r[|parent|] == '/' && r[|parent| + 1..] == name
  {
    parent + "/" + name
  }

  /**
    The image-file batch of a listed directory with canonical path `parent`:
    the children whose name the image filter accepts, rewritten as absolute
    paths, in listing order. The filter looks at names only, so a
    sub-directory with an image-like name is part of the batch too.
   */
  function JpegPaths(isJpeg: string -> bool, parent: string, cs: seq<Node>): (r: seq<string>)
    ensures |r| <= |cs|
    ensures forall i | 0 <= i < |cs| && isJpeg(cs[i].name) :: ChildPath(parent, cs[i].name) in r
    ensures forall f | f in r :: exists i :: 0 <= i < |cs| && isJpeg(cs[i].name) && f == ChildPath(parent, cs[i].name)
  {
    if cs == [] then []
    else
      var rest := JpegPaths(isJpeg, parent, cs[1..]);
      assert forall i | 1 <= i < |cs| :: cs[i] == cs[1..][i - 1];
      if isJpeg(cs[0].name) then [ChildPath(parent, cs[0].name)] + rest else rest
  }

  /**
    The entries the walk visits when started at `n`: `n` itself, and, below a
    listable directory with a canonical path, everything reached through its
    non-hidden sub-directories. Hidden directories and everything under them
    are never reached, and neither is anything below an entry that has no
    canonical path.
   */
  predicate Reaches(n: Node, m: Node)
    decreases n
  {
    n == m
    || (n.Dir? && n.canonical.Some? && n.listable
        && exists i :: 0 <= i < |n.children| && IsSubDir(n.children[i]) && Reaches(n.children[i], m))
  }
}

=== FILE: javalong.dfy ===
/**
  Java's 64-bit `long` as far as the pick history uses it: the decimal text
  `Long.toString` writes, and the text `Long.parseLong` accepts.
 */
module JavaLong {
  import opened Wrappers

  const MinLong: int := -0x8000_0000_0000_0000
  const MaxLong: int := 0x7fff_ffff_ffff_ffff

  /** The values of a Java `long`. */
  type Long = x: int | MinLong <= x <= MaxLong

  predicate IsDigit(c: char) {
    '0' <= c <= '9'
  }

  predicate AllDigits(s: string) {
    forall i | 0 <= i < |s| :: IsDigit(s[i])
  }

  function DigitValue(c: char): (r: nat)
    requires IsDigit(c)
    ensures r < 10
  {
    (c as int) - ('0' as int)
  }

  function DigitChar(d: nat): (c: char)
    requires d < 10
    ensures IsDigit(c) && DigitValue(c) == d
  {
    (('0' as int) + d) as char
  }

  /** The value of a string of decimal digits, most significant first. */
  function DigitsValue(s: string): nat
    requires AllDigits(s)
  {
    if s == [] then 0 else DigitsValue(s[..|s| - 1]) * 10 + DigitValue(s[|s| - 1])
  }

  /** The shortest decimal text of a non-negative number. */
  function NatToDecimal(n: nat): (r: string)
    ensures |r| > 0
  {
    if n < 10 then [DigitChar(n)] else NatToDecimal(n / 10) + [DigitChar(n % 10)]
  }

  /** `Long.toString`: a minus sign for negative values, then the decimal digits. */
  function ToString(n: Long): (r: string)
    ensures |r| > 0
    ensures r[0] == '-' <==> n < 0
  {
    var m: int := n;
    if m < 0 then "-" + NatToDecimal(-m)
    else DecimalDigits(m); NatToDecimal(m)
  }

  /**
    `Long.parseLong`: an optional sign, then at least one decimal digit, and a
    value within the range of `long`; anything else is rejected (Java throws
    `NumberFormatException`, here `None`).
   */
  function ParseLong(s: string): (r: Option<Long>)
    ensures r.Some? ==> |s| > 0
    ensures r.Some? && r.value < 0 ==> s[0] == '-'
  {
    if |s| == 0 then None
    else
      var signed := s[0] == '-' || s[0] == '+';
      var digits := if signed then s[1..] else s;
      if |digits| == 0 || !AllDigits(digits) then None
      else
        var magnitude: int := DigitsValue(digits);
        var v: int := if s[0] == '-' then -magnitude else magnitude;
        if MinLong <= v <= MaxLong then Some(v) else None
  }

  /** A text with a character other than a decimal digit after its optional sign is rejected. */
  lemma ParseLongRejects(s: string, j: nat)
    requires 0 < |s| && j < |s| && !IsDigit(s[j])
    requires j > 0 || (s[0] != '-' && s[0] != '+')
    ensures ParseLong(s) == None
  {
    var signed := s[0] == '-' || s[0] == '+';
    var digits := if signed then s[1..] else s;
    var k := if signed then j - 1 else j;
    assert digits[k] == s[j];
  }

  lemma {:induction false} DecimalDigits(n: nat)
    ensures AllDigits(NatToDecimal(n))
  {
    if n >= 10 {
      DecimalDigits(n / 10);
    }
  }

  lemma {:induction false} DecimalValue(n: nat)
    ensures AllDigits(NatToDecimal(n)) && DigitsValue(NatToDecimal(n)) == n
  {
    DecimalDigits(n);
    if n >= 10 {
      var r := NatToDecimal(n);
      assert r[..|r| - 1] == NatToDecimal(n / 10);
      DecimalValue(n / 10);
    }
  }

  /** Every `long` survives the trip through its decimal text. */
  lemma ParseToString(n: Long)
    ensures ParseLong(ToString(n)) == Some(n)
  {
    var m: int := n;
    var s := ToString(n);
    if m < 0 {
      var digits := NatToDecimal(-m);
      assert s == "-" + digits;
      assert s[1..] == digits;
      DecimalValue(-m);
      assert DigitsValue(s[1..]) == -m;
    } else {
      var digits := NatToDecimal(m);
      assert s == digits;
      DecimalValue(m);
      assert digits[0] != '-' && digits[0] != '+' by { assert IsDigit(digits[0]); }
    }
  }
}

=== FILE: lifecycle.dfy ===
/**
  The life cycle of a recursive scanner instance and the process-wide slot
  `sScanner` that names the current (running or resumable) scan.

  Scanner instances live in `World.scanners`; an instance's identity is its
  index there, and `slot` is `sScanner`. The platform's task contract is
  modelled as far as these operations rely on it: a task starts `Pending`,
  `execute` (`Execute`) makes it `Running`, and when the background work settles the
  platform calls `onCancelled` if the task was cancelled and `onPostExecute`
  otherwise, then marks it `Finished`.
 */
module Lifecycle {
  import opened Wrappers
  import opened FileTree
  import opened Walker
  import opened ScanReference
  import opened WalkFacts
  import opened PauseResume

  datatype Status = Pending | Running | Finished

  /**
    The fields of one scanner instance: why it was created, the task status,
    whether `cancel` was called, the pending list `mPaused`, and the
    statistics shown while it runs.
   */
  datatype Scanner = Scanner(why: string, status: Status, cancelled: bool, paused: Option<seq<string>>,
                             currentFolder: string, count: int)

  datatype World = World(scanners: seq<Scanner>, slot: Option<nat>)

  /** The slot names an existing instance, if any. */
  predicate Valid(w: World) {
    w.slot.Some? ==> w.slot.value < |w.scanners|
  }

  /** A freshly constructed instance. */
  function NewScanner(why: string): Scanner {
    Scanner(why, Pending, false, None, "", 0)
  }

  /** Constructs a new instance; it gets the next identity and is not installed anywhere. */
  function Create(w: World, why: string): (r: (World, nat))
    ensures r.1 == |w.scanners| && r.0.scanners == w.scanners + [NewScanner(why)] && r.0.slot == w.slot
  {
    (World(w.scanners + [NewScanner(why)], w.slot), |w.scanners|)
  }

  /**
    The platform's `execute`: a pending task starts running; on a task that
    is running or finished it throws `IllegalStateException`, here `None`.
    The request it starts with is given to `Run`.
   */
  function Execute(w: World, id: nat): (r: Option<World>)
    requires Valid(w) && id < |w.scanners|
    ensures r.Some? <==> w.scanners[id].status == Pending
    ensures r.Some? ==>
      && Valid(r.value) && |r.value.scanners| == |w.scanners| && r.value.slot == w.slot
      && r.value.scanners[id] == w.scanners[id].(status := Running)
      && forall j | 0 <= j < |w.scanners| && j != id :: r.value.scanners[j] == w.scanners[j]
  {
    if w.scanners[id].status == Pending then Some(Update(w, id, w.scanners[id].(status := Running))) else None
  }

  /** Compare-and-clear: the slot is emptied only when it still names `id`. */
  function ClearIfCurrent(slot: Option<nat>, id: nat): (r: Option<nat>)
    ensures r != Some(id)
    ensures r == None || r == slot
    ensures slot != Some(id) ==> r == slot
  {
    if slot == Some(id) then None else slot
  }

  function Update(w: World, id: nat, s: Scanner): (r: World)
    requires id < |w.scanners|
    ensures |r.scanners| == |w.scanners| && r.scanners[id] == s && r.slot == w.slot
    ensures forall j | 0 <= j < |w.scanners| && j != id :: r.scanners[j] == w.scanners[j]
  {
    w.(scanners := w.scanners[id := s])
  }

  /** `getBusyScanner`: the instance in the slot, but only while it is running. */
  function GetBusyScanner(w: World): (r: Option<nat>)
    requires Valid(w)
    ensures r.Some? <==> w.slot.Some? && w.scanners[w.slot.value].status == Running
    ensures r.Some? ==> r == w.slot
  {
    match w.slot
    case None => None
    case Some(id) => if w.scanners[id].status == Running then Some(id) else None
  }

  /**
    The scanner-state part of `onStatusDialogEnd`. With `cancelScanner` the
    pending list becomes `pauseState` (absent for a full stop, empty for a
    pause), the task is cancelled and the slot is cleared if it names this
    instance; without it nothing of the scanner state changes.
   */
  function OnStatusDialogEnd(w: World, id: nat, pauseState: Option<seq<string>>, cancelScanner: bool): (r: World)
    requires Valid(w) && id < |w.scanners|
    ensures Valid(r) && |r.scanners| == |w.scanners|
    ensures forall j | 0 <= j < |w.scanners| && j != id :: r.scanners[j] == w.scanners[j]
    ensures !cancelScanner ==> r == w
    ensures cancelScanner ==>
      && r.scanners[id] == w.scanners[id].(paused := pauseState, cancelled := true)
      && r.slot == ClearIfCurrent(w.slot, id)
  {
    if cancelScanner then
      var s := w.scanners[id];
      var w1 := Update(w, id, s.(paused := pauseState, cancelled := true));
      w1.(slot := ClearIfCurrent(w1.slot, id))
    else w
  }

  /** The outcome of `resumeIfNeccessary`: the world after it, its answer, and the request it started with. */
  datatype Resumed = Resumed(world: World, started: bool, request: Request)

  /**
    `resumeIfNeccessary`: a pending instance holding a pending list starts
    running with that list as its request, and the list is dropped; any other
    instance is left alone.
   */
  function ResumeIfNeccessary(w: World, id: nat): (r: Resumed)
    requires Valid(w) && id < |w.scanners|
    ensures Valid(r.world) && |r.world.scanners| == |w.scanners| && r.world.slot == w.slot
    ensures r.started <==> w.scanners[id].status == Pending && w.scanners[id].paused.Some?
    ensures r.started ==>
      && r.world.scanners[id] == w.scanners[id].(status := Running, paused := None)
      && r.request == AsRequest(w.scanners[id].paused.value)
    ensures !r.started ==> r.world == w
    ensures forall j | 0 <= j < |w.scanners| && j != id :: r.world.scanners[j] == w.scanners[j]
  {
    var s := w.scanners[id];
    if s.status == Pending && s.paused.Some? then
      var req := AsRequest(s.paused.value);
      Resumed(Update(w, id, s.(status := Running, paused := None)), true, req)
    else Resumed(w, false, [])
  }

  /**
    `handleScannerCancel`: a successor is created exactly when a pending list
    was collected and the slot names this instance or nothing. The successor
    is pending, carries the same pending list, and takes the slot. Without a
    successor the slot is cleared only if it names this instance, so a slot
    already given to another instance is never overwritten.
   */
  function HandleScannerCancel(w: World, id: nat): (r: World)
    requires Valid(w) && id < |w.scanners|
    ensures Valid(r)
    ensures |r.scanners| >= |w.scanners| && r.scanners[..|w.scanners|] == w.scanners
    ensures var s := w.scanners[id];
      var must := s.paused.Some? && (w.slot == Some(id) || w.slot == None);
      && (must ==>
            && |r.scanners| == |w.scanners| + 1
            && r.scanners[|w.scanners|] == NewScanner("resumed " + s.why).(paused := s.paused)
            && r.slot == Some(|w.scanners|))
      && (!must ==> |r.scanners| == |w.scanners| && r.slot == ClearIfCurrent(w.slot, id))
  {
    var s := w.scanners[id];
    var must := s.paused.Some? && (w.slot == Some(id) || w.slot == None);
    var w1 := OnStatusDialogEnd(w, id, s.paused, false);
    var w2 := w1.(slot := ClearIfCurrent(w1.slot, id));
    if must then
      var successor := NewScanner("resumed " + s.why).(paused := s.paused);
      World(w2.scanners + [successor], Some(|w2.scanners|))
    else w2
  }

  /** `onPostExecute`: a cancelled instance is handled as in `onCancelled`; otherwise the slot is cleared if it names this instance. */
  function OnPostExecute(w: World, id: nat): (r: World)
    requires Valid(w) && id < |w.scanners|
    ensures Valid(r) && |r.scanners| >= |w.scanners| && r.scanners[..|w.scanners|] == w.scanners
    ensures !w.scanners[id].cancelled ==> r == w.(slot := ClearIfCurrent(w.slot, id))
    ensures w.scanners[id].cancelled ==> r == HandleScannerCancel(w, id)
  {
    if w.scanners[id].cancelled then HandleScannerCancel(w, id)
    else
      var w1 := OnStatusDialogEnd(w, id, None, false);
      w1.(slot := ClearIfCurrent(w1.slot, id))
  }

  /** `onCancelled`. */
  function OnCancelled(w: World, id: nat): (r: World)
    requires Valid(w) && id < |w.scanners|
    ensures Valid(r) && |r.scanners| >= |w.scanners| && r.scanners[..|w.scanners|] == w.scanners
    ensures r.slot != Some(id)
    ensures r == HandleScannerCancel(w, id)
  {
    HandleScannerCancel(w, id)
  }

  /** The platform's completion of a task: `onCancelled` or `onPostExecute`, then the task is finished. */
  function Finish(w: World, id: nat): (r: World)
    requires Valid(w) && id < |w.scanners|
    ensures Valid(r) && |r.scanners| >= |w.scanners|
    ensures r.scanners[id] == w.scanners[id].(status := Finished)
    ensures forall j | 0 <= j < |w.scanners| && j != id :: r.scanners[j] == w.scanners[j]
    ensures r.slot != Some(id)
  {
    var w1 := if w.scanners[id].cancelled then OnCancelled(w, id) else OnPostExecute(w, id);
    assert w1.scanners[id] == w.scanners[id] by {
      assert w1.scanners[..|w.scanners|][id] == w1.scanners[id];
    }
    Update(w1, id, w1.scanners[id].(status := Finished))
  }

  /** The outcome of a background run: the world after it and what the walk produced. */
  datatype RunResult = RunResult(world: World, walk: Scanned)

  /**
    The background work of a running instance over `pathNames`. A cancel
    request made while it runs is applied to the world before this call
    (`OnStatusDialogEnd` with `cancelScanner`); `observedAt` is the
    cancellation check at which the walker first sees it. The walk writes
    back the pending list and the statistics.
   */
  function Run(env: Env, resolve: string -> Node, w: World, id: nat, pathNames: Request, observedAt: nat): (r: RunResult)
    requires Valid(w) && id < |w.scanners|
    ensures Valid(r.world) && |r.world.scanners| == |w.scanners| && r.world.slot == w.slot
    ensures forall j | 0 <= j < |w.scanners| && j != id :: r.world.scanners[j] == w.scanners[j]
    ensures r.world.scanners[id].status == w.scanners[id].status
    ensures r.world.scanners[id].cancelled == w.scanners[id].cancelled
    ensures r.world.scanners[id].count == w.scanners[id].count + r.walk.changes
    ensures forall i | 0 <= i < |r.walk.stopped| :: r.walk.stopped[i].canonical.Some?
    ensures r.world.scanners[id].paused == Record(w.scanners[id].paused, Canonicals(r.walk.stopped))
  {
    var s := w.scanners[id];
    var flag := if s.cancelled then SetFrom(observedAt) else NeverSet;
    var start := Fields(0, s.paused, s.currentFolder, s.count);
    var c := DoInBackground(env, flag, resolve, pathNames, start);
    NodesAccounts(env, flag, Resolve(resolve, RootPaths(pathNames)), start);
    RunResult(Update(w, id, s.(paused := c.out.paused, currentFolder := c.out.currentFolder, count := c.out.count)), c)
  }
}

=== FILE: lifecyclefacts.dfy ===
/**
  Properties of the scanner life cycle across several operations: the slot
  never names a finished instance, a full stop leaves nothing to resume, a
  pause hands its pending list to exactly one successor, and resuming that
  successor completes the interrupted scan.
 */
module LifecycleFacts {
  import opened Wrappers
  import opened FileTree
  import opened Walker
  import opened ScanReference
  import opened WalkFacts
  import opened PauseResume
  import opened Lifecycle

  /** The slot names an existing instance that has not finished. */
  predicate SlotLive(w: World) {
    Valid(w) && (w.slot.Some? ==> w.scanners[w.slot.value].status != Finished)
  }

  /** Every operation keeps the slot away from finished instances. */
  lemma OperationsKeepSlotLive(env: Env, resolve: string -> Node, w: World, id: nat, why: string,
                               pauseState: Option<seq<string>>, cancelScanner: bool, req: Request, k: nat)
    requires SlotLive(w) && id < |w.scanners|
    ensures SlotLive(Create(w, why).0)
    ensures SlotLive(OnStatusDialogEnd(w, id, pauseState, cancelScanner))
    ensures SlotLive(ResumeIfNeccessary(w, id).world)
    ensures SlotLive(Run(env, resolve, w, id, req, k).world)
    ensures SlotLive(Finish(w, id))
    ensures Execute(w, id).Some? ==> SlotLive(Execute(w, id).value)
  {
    FinishKeepsSlotLive(w, id);
  }

  /** Finishing an instance leaves the slot on a live instance or empty. */
  lemma FinishKeepsSlotLive(w: World, id: nat)
    requires SlotLive(w) && id < |w.scanners|
    ensures SlotLive(Finish(w, id))
  {
    var w1 := if w.scanners[id].cancelled then OnCancelled(w, id) else OnPostExecute(w, id);
    if w1.slot.Some? && w1.slot.value < |w.scanners| {
      assert w1.scanners[w1.slot.value] == w1.scanners[..|w.scanners|][w1.slot.value];
    }
  }

  /**
    A first start: a freshly created instance can be executed exactly once.
    It then runs, but is the busy scanner only if a caller installs it in
    the slot.
   */
  lemma CreateThenExecute(w: World, why: string)
    requires SlotLive(w)
    ensures
      var (w1, id) := Create(w, why);
      && Execute(w1, id).Some?
      && var w2 := Execute(w1, id).value;
         && w2.scanners[id] == NewScanner(why).(status := Running)
         && Execute(w2, id).None?
         && GetBusyScanner(w2) == GetBusyScanner(w)
         && GetBusyScanner(w2.(slot := Some(id))) == Some(id)
  {
    var (w1, id) := Create(w, why);
    var w2 := Execute(w1, id).value;
    if w.slot.Some? {
      assert w2.scanners[w.slot.value] == w.scanners[w.slot.value];
    }
  }

  /** `resumeIfNeccessary` starts an instance at most once. */
  lemma ResumeAtMostOnce(w: World, id: nat)
    requires Valid(w) && id < |w.scanners|
    ensures var r := ResumeIfNeccessary(w, id);
      r.started ==> !ResumeIfNeccessary(r.world, id).started
  {
  }

  /**
    A full stop (cancel without a pending list) of a running instance: after
    the background work settles no successor exists, the slot no longer names
    the instance, and if the instance was the current scan nothing is busy.
   */
  lemma FullStopLeavesNothing(env: Env, resolve: string -> Node, w: World, id: nat, req: Request, k: nat)
    requires Valid(w) && id < |w.scanners| && w.scanners[id].status == Running
    ensures
      var w1 := OnStatusDialogEnd(w, id, None, true);
      var w2 := Run(env, resolve, w1, id, req, k).world;
      var w3 := Finish(w2, id);
      && |w3.scanners| == |w.scanners|
      && w3.slot == ClearIfCurrent(w.slot, id)
      && w3.scanners[id].paused == None && w3.scanners[id].status == Finished
      && (w.slot == Some(id) || w.slot == None ==> GetBusyScanner(w3) == None)
  {
    var w1 := OnStatusDialogEnd(w, id, None, true);
    var w2 := Run(env, resolve, w1, id, req, k).world;
    assert w2.scanners[id].cancelled && w2.scanners[id].paused == None;
    assert |HandleScannerCancel(w2, id).scanners| == |w2.scanners|;
  }

  /**
    A pause lost to a racing party: if the slot already names another
    instance when a cancelled instance settles, no successor is created and
    the slot keeps naming the other instance.
   */
  lemma RaceLostKeepsSlot(w: World, id: nat, other: nat)
    requires Valid(w) && id < |w.scanners| && w.scanners[id].cancelled
    requires w.slot == Some(other) && other != id
    ensures |Finish(w, id).scanners| == |w.scanners|
    ensures Finish(w, id).slot == Some(other)
  {
    assert |HandleScannerCancel(w, id).scanners| == |w.scanners|;
  }

  /**
    Pausing the current scan: when the paused instance settles exactly one
    successor is installed in the slot, pending and therefore not busy,
    holding the pending list; resuming it makes it the busy scanner and
    starts it on that list.
   */
  lemma PauseInstallsSuccessor(env: Env, resolve: string -> Node, w: World, id: nat, req: Request, k: nat)
    requires Valid(w) && id < |w.scanners|
    requires w.scanners[id].status == Running && w.slot == Some(id)
    ensures
      var run := Run(env, resolve, OnStatusDialogEnd(w, id, Some([]), true), id, req, k);
      var w2 := Finish(run.world, id);
      var succ := |w.scanners|;
      && run.world.scanners[id].paused.Some?
      && |w2.scanners| == succ + 1 && w2.slot == Some(succ)
      && w2.scanners[succ].status == Pending
      && w2.scanners[succ].paused == run.world.scanners[id].paused
      && GetBusyScanner(w2) == None
      && var rs := ResumeIfNeccessary(w2, succ);
         && rs.started && GetBusyScanner(rs.world) == Some(succ)
         && rs.request == AsRequest(run.world.scanners[id].paused.value)
         && rs.world.scanners[succ] == NewScanner("resumed " + w.scanners[id].why).(status := Running)
  {
    var w1 := OnStatusDialogEnd(w, id, Some([]), true);
    assert w1.slot == None;
    var run := Run(env, resolve, w1, id, req, k);
    var succ := |w.scanners|;
    var hc := HandleScannerCancel(run.world, id);
    assert run.world.scanners[id].paused.Some?;
    assert |hc.scanners| == succ + 1;
    assert Finish(run.world, id).scanners[succ] == hc.scanners[succ];
  }

  /**
    Pause and resume of the current scan, end to end: the walk of the paused
    instance (observing the pause at any point) and the walk of its resumed
    successor together issue exactly the batches of one uninterrupted scan of
    the request, and report exactly its changes.
   */
  lemma {:induction false} PauseChainCompletesScan(env: Env, resolve: string -> Node, w: World, id: nat,
                                                  req: Request, k: nat, k2: nat)
    requires Valid(w) && id < |w.scanners|
    requires w.scanners[id].status == Running && !w.scanners[id].cancelled && w.slot == Some(id)
    requires forall p | p in RootPaths(req) :: CanonicalNamesEntry(resolve, resolve(p))
    ensures
      var run := Run(env, resolve, OnStatusDialogEnd(w, id, Some([]), true), id, req, k);
      var rs := ResumeIfNeccessary(Finish(run.world, id), |w.scanners|);
      var run2 := Run(env, resolve, rs.world, |w.scanners|, rs.request, k2);
      && run.walk.batches + run2.walk.batches == FullAll(env, Resolve(resolve, RootPaths(req)))
      && run.walk.changes + run2.walk.changes == SumChanges(env, FullAll(env, Resolve(resolve, RootPaths(req))))
  {
    var s := w.scanners[id];
    var w1 := OnStatusDialogEnd(w, id, Some([]), true);
    var run := Run(env, resolve, w1, id, req, k);
    var f := Fields(0, Some([]), s.currentFolder, s.count);
    assert run.walk == DoInBackground(env, SetFrom(k), resolve, req, f);
    PauseInstallsSuccessor(env, resolve, w, id, req, k);
    var succ := |w.scanners|;
    var rs := ResumeIfNeccessary(Finish(run.world, id), succ);
    var pending := run.world.scanners[id].paused.value;
    var g := Fields(0, None, "", 0);
    var run2 := Run(env, resolve, rs.world, succ, rs.request, k2);
    assert run2.walk == DoInBackground(env, NeverSet, resolve, AsRequest(pending), g);
    PauseExtendsPending(env, resolve, req, k, f);
    assert pending[|f.paused.value|..] == pending;
    assert run2.walk == ResumedWalk(env, resolve, req, k, f, g);
    PauseThenResume(env, resolve, req, k, f, g);
    PauseThenResumeChanges(env, resolve, req, k, f, g);
    UncancelledWalk(env, Resolve(resolve, RootPaths(req)), f);
  }
}

=== FILE: pause.dfy ===
/**
  Pause completeness: the pending list a cancelled walk collects is a request
  that, walked again without cancellation, issues exactly the batches the
  interrupted walk did not get to.
 */
module PauseResume {
  import opened Wrappers
  import opened FileTree
  import opened Walker
  import opened ScanReference
  import opened WalkFacts

  /**
    The file system names the entries reached from `n` consistently: each
    canonical path is non-empty, and the path names the same entry again.
   */
  ghost predicate CanonicalNamesEntry(resolve: string -> Node, n: Node) {
    forall m | Reaches(n, m) && m.canonical.Some? ::
      |m.canonical.value| > 0 && resolve(m.canonical.value) == m
  }

  lemma {:induction false} NonEmptyPathsKeepsAll(paths: seq<Option<string>>, xs: seq<string>)
    requires |paths| == |xs|
    requires forall j | 0 <= j < |xs| :: paths[j] == Some(xs[j]) && |xs[j]| > 0
    ensures NonEmptyPaths(paths) == xs
  {
    if xs != [] {
      NonEmptyPathsKeepsAll(paths[1..], xs[1..]);
    }
  }

  /** A pending list of non-empty paths, submitted as a request, is walked path by path in its own order. */
  lemma RootPathsOfPending(xs: seq<string>)
    requires forall j | 0 <= j < |xs| :: |xs[j]| > 0
    ensures RootPaths(AsRequest(xs)) == xs
  {
    var req := AsRequest(xs);
    NonEmptyPathsKeepsAll(req[0].value, xs);
    assert req[1..] == [];
    assert RootPaths(req) == NonEmptyPaths(req[0].value) + RootPaths(req[1..]);
  }

  /** The pending paths of the stopped entries name those entries again. */
  lemma ResolvePending(resolve: string -> Node, ns: seq<Node>, stopped: seq<Node>)
    requires forall i | 0 <= i < |ns| :: CanonicalNamesEntry(resolve, ns[i])
    requires forall m | m in stopped :: exists i :: 0 <= i < |ns| && Reaches(ns[i], m)
    requires forall i | 0 <= i < |stopped| :: stopped[i].canonical.Some?
    ensures forall j | 0 <= j < |stopped| :: |Canonicals(stopped)[j]| > 0
    ensures Resolve(resolve, Canonicals(stopped)) == stopped
  {
    var pending := Canonicals(stopped);
    forall j | 0 <= j < |pending|
      ensures |pending[j]| > 0 && resolve(pending[j]) == stopped[j]
    {
      var m := stopped[j];
      assert m in stopped;
      var i :| 0 <= i < |ns| && Reaches(ns[i], m);
    }
  }

  /**
    A walk with a pending list requested keeps collecting: whenever it is
    cancelled, the list it ends with extends the list it started with.
   */
  lemma {:induction false} PauseExtendsPending(env: Env, resolve: string -> Node, pathNames: Request, k: nat, f: Fields)
    requires f.paused.Some?
    ensures
      var c := DoInBackground(env, SetFrom(k), resolve, pathNames, f);
      && c.out.paused.Some?
      && |f.paused.value| <= |c.out.paused.value|
      && c.out.paused.value[..|f.paused.value|] == f.paused.value
  {
    var ns := Resolve(resolve, RootPaths(pathNames));
    NodesAccounts(env, SetFrom(k), ns, f);
    var c := ScanNodes(env, SetFrom(k), ns, f);
    assert c.out.paused.value == f.paused.value + Canonicals(c.stopped);
  }

  /** The pending paths a cancelled walk adds, submitted again as a request, and the walk over them. */
  function ResumedWalk(env: Env, resolve: string -> Node, pathNames: Request, k: nat, f: Fields, g: Fields): (r: Scanned)
    requires f.paused.Some?
  {
    var c := DoInBackground(env, SetFrom(k), resolve, pathNames, f);
    var pending := if c.out.paused.Some? && |f.paused.value| <= |c.out.paused.value|
                   then c.out.paused.value[|f.paused.value|..] else [];
    DoInBackground(env, NeverSet, resolve, AsRequest(pending), g)
  }

  /**
    Pause then resume loses nothing and repeats nothing. A walk over any
    request, with a pending list requested and cancelled from any point on,
    collects pending paths (`PauseExtendsPending`); a fresh uncancelled walk
    over exactly those paths issues the remaining batches, so that the two
    runs together issue exactly the batches of one uncancelled walk.
   */
  lemma {:induction false} PauseThenResume(env: Env, resolve: string -> Node, pathNames: Request, k: nat, f: Fields, g: Fields)
    requires f.paused.Some?
    requires forall p | p in RootPaths(pathNames) :: CanonicalNamesEntry(resolve, resolve(p))
    ensures
      var full := DoInBackground(env, NeverSet, resolve, pathNames, f);
      var c := DoInBackground(env, SetFrom(k), resolve, pathNames, f);
      c.batches + ResumedWalk(env, resolve, pathNames, k, f, g).batches == full.batches
  {
    var roots := RootPaths(pathNames);
    var ns := Resolve(resolve, roots);
    assert forall i | 0 <= i < |ns| :: CanonicalNamesEntry(resolve, ns[i]) by {
      forall i | 0 <= i < |ns| ensures CanonicalNamesEntry(resolve, ns[i]) {
        assert roots[i] in roots;
      }
    }
    var c := ScanNodes(env, SetFrom(k), ns, f);
    NodesSplit(env, SetFrom(k), ns, f);
    NodesAccounts(env, SetFrom(k), ns, f);
    var pending := Canonicals(c.stopped);
    assert c.out.paused.value == f.paused.value + pending;
    assert c.out.paused.value[|f.paused.value|..] == pending;
    ResolvePending(resolve, ns, c.stopped);
    RootPathsOfPending(pending);
    var r := ScanNodes(env, NeverSet, c.stopped, g);
    assert r == ResumedWalk(env, resolve, pathNames, k, f, g);
    UncancelledWalk(env, c.stopped, g);
    var full := ScanNodes(env, NeverSet, ns, f);
    UncancelledWalk(env, ns, f);
  }

  /** The two runs of a pause and resume together report exactly the changes of one uncancelled walk. */
  lemma {:induction false} PauseThenResumeChanges(env: Env, resolve: string -> Node, pathNames: Request, k: nat, f: Fields, g: Fields)
    requires f.paused.Some?
    requires forall p | p in RootPaths(pathNames) :: CanonicalNamesEntry(resolve, resolve(p))
    ensures
      var full := DoInBackground(env, NeverSet, resolve, pathNames, f);
      var c := DoInBackground(env, SetFrom(k), resolve, pathNames, f);
      c.changes + ResumedWalk(env, resolve, pathNames, k, f, g).changes == full.changes
  {
    var ns := Resolve(resolve, RootPaths(pathNames));
    var c := ScanNodes(env, SetFrom(k), ns, f);
    var r := ResumedWalk(env, resolve, pathNames, k, f, g);
    PauseThenResume(env, resolve, pathNames, k, f, g);
    NodesAccounts(env, SetFrom(k), ns, f);
    NodesAccounts(env, NeverSet, ns, f);
    var pending := if c.out.paused.Some? && |f.paused.value| <= |c.out.paused.value|
                   then c.out.paused.value[|f.paused.value|..] else [];
    NodesAccounts(env, NeverSet, Resolve(resolve, RootPaths(AsRequest(pending))), g);
    SumChangesAppend(env, c.batches, r.batches);
  }

  /** A request of one path walks the entry that path names, and nothing else. */
  lemma WalkOfOnePath(env: Env, flag: CancelFlag, resolve: string -> Node, p: string, f: Fields)
    requires |p| > 0
    ensures var c := DoInBackground(env, flag, resolve, AsRequest([p]), f);
      var s := Scan(env, flag, resolve(p), f);
      c.batches == s.batches && c.out == s.out
  {
    RootPathsOfPending([p]);
    var ns := Resolve(resolve, [p]);
    assert ns == [resolve(p)];
    assert ns[1..] == [];
    var s := Scan(env, flag, resolve(p), f);
    assert ScanNodes(env, flag, ns, f) == Then(s, ScanNodes(env, flag, [], s.out));
    assert s.batches + [] == s.batches;
  }

  /**
    Why `PauseThenResume` needs `CanonicalNamesEntry`. A start path `pic.jpg`
    that is a link to `/data/blob`: the image filter looks at the link's
    name, but the pending list records the target's canonical path, and the
    target's own name is not an image name. Cancelled at the first check,
    the paused walk issues nothing and records `/data/blob`; the resumed
    walk issues nothing either, while an uncancelled walk issues one batch.
   */
  lemma SymlinkedImageRootLost(env: Env, resolve: string -> Node)
    requires env.isJpeg("pic.jpg") && !env.isJpeg("blob")
    requires resolve("pic.jpg") == NonDir("pic.jpg", Some("/data/blob"))
    requires resolve("/data/blob") == NonDir("blob", Some("/data/blob"))
    ensures
      var f := Fields(0, Some([]), "", 0);
      && DoInBackground(env, NeverSet, resolve, AsRequest(["pic.jpg"]), f).batches == [Batch("/data/blob", ["/data/blob"])]
      && DoInBackground(env, SetFrom(0), resolve, AsRequest(["pic.jpg"]), f).batches == []
      && DoInBackground(env, SetFrom(0), resolve, AsRequest(["pic.jpg"]), f).out.paused == Some(["/data/blob"])
    ensures DoInBackground(env, NeverSet, resolve, AsRequest(["/data/blob"]), Fields(0, None, "", 0)).batches == []
    ensures !CanonicalNamesEntry(resolve, resolve("pic.jpg"))
  {
    var f := Fields(0, Some([]), "", 0);
    var n := resolve("pic.jpg");
    assert Reaches(n, n);
    WalkOfOnePath(env, NeverSet, resolve, "pic.jpg", f);
    WalkOfOnePath(env, SetFrom(0), resolve, "pic.jpg", f);
    assert [] + ["/data/blob"] == ["/data/blob"];
    WalkOfOnePath(env, NeverSet, resolve, "/data/blob", Fields(0, None, "", 0));
  }

  /**
    The scenario of a tree `/a` holding `/a/x` and `/a/y`: cancelled right
    after `/a/x` was indexed, the pending list is exactly `/a/y`.
   */
  lemma PauseBetweenSiblings(env: Env, x: Node, y: Node, f: Fields)
    requires x == Dir("x", Some("/a/x"), true, [])
    requires y == Dir("y", Some("/a/y"), true, [NonDir("1.jpg", Some("/a/y/1.jpg"))])
    requires f.step == 0 && f.paused == Some([])
    ensures
      var a := Dir("a", Some("/a"), true, [x, y]);
      var c := ScanNodes(env, SetFrom(2), [a], f);
      && c.out.paused == Some(["/a/y"])
      && c.stopped == [y]
      && |c.batches| == 2 && c.batches[0].folder == "/a" && c.batches[1] == Batch("/a/x", [])
  {
    var a := Dir("a", Some("/a"), true, [x, y]);
    var flag := SetFrom(2);
    var b := RunScanner(env, f.(step := 1), "/a", JpegPaths(env.isJpeg, "/a", [x, y]));
    var sx := Scan(env, flag, x, b.out);
    assert sx.batches == [Batch("/a/x", [])] && sx.stopped == [] && sx.out.step == 2 && sx.out.paused == Some([]);
    var sy := Scan(env, flag, y, sx.out);
    assert [] + ["/a/y"] == ["/a/y"];
    assert sy.batches == [] && sy.stopped == [y] && sy.out.paused == Some(["/a/y"]);
    assert [x, y][1..] == [y];
    assert [y][1..] == [];
    var ch := ScanChildren(env, flag, [x, y], b.out);
    assert IsSubDir(x) && IsSubDir(y);
    assert ScanChildren(env, flag, [y], sx.out) == Then(sy, ScanChildren(env, flag, [], sy.out));
    assert ch == Then(sx, ScanChildren(env, flag, [y], sx.out));
    var sa := Scan(env, flag, a, f);
    assert sa == Then(b, ch);
    assert [a][1..] == [];
    assert ScanNodes(env, flag, [a], f) == Then(sa, ScanNodes(env, flag, [], sa.out));
  }
}

=== FILE: pickhistory.dfy ===
/**
  The geo pick history: a bounded list of recently picked points (an id
  and a latitude/longitude pair) with no two entries for the same id or the
  same position, and the export of its ids.

  Java's `null` is `None` throughout: the list itself may be absent, an
  element may be absent, and a point's id may be absent. Where the Java code
  throws, the outcome records the exception together with the list as the
  code left it.
 */
module PickHistory {
  import opened Wrappers
  import opened JavaLong

  /** A latitude or longitude; the history only ever compares them for equality. */
  type Coord(==)

  datatype GeoPoint = GeoPoint(id: Option<string>, latitude: Coord, longitude: Coord)

  /** A list element; `None` is a null element. */
  type Item = Option<GeoPoint>

  datatype JavaException = NullPointer | IndexOutOfBounds

  /** How an operation ended, and the list (`mData`) it left behind. */
  datatype Outcome = Done(data: Option<seq<Item>>) | Threw(exception: JavaException, data: Option<seq<Item>>)

  // ---------------------------------------------------------------------
  // remove
  // ---------------------------------------------------------------------

  /** The text key of an id: `id.toString()`, or null for a null id. */
  function Key(id: Option<Long>): (r: Option<string>)
    ensures r.Some? <==> id.Some?
  {
    if id.Some? then Some(ToString(id.value)) else None
  }

  datatype Verdict = Keep | Drop | Fails

  /**
    What `remove` does with one element: a null element or one at the same
    position is dropped; with a key, an element with the same id is dropped
    and one with a null id makes `compareTo` throw; everything else is kept.
   */
  function Judge(key: Option<string>, latitude: Coord, longitude: Coord, item: Item): Verdict {
    match item
    case None => Drop
    case Some(p) =>
      if latitude == p.latitude && longitude == p.longitude then Drop
      else if key.None? then Keep
      else if p.id.None? then Fails
      else if key.value == p.id.value then Drop
      else Keep
  }

  /** The elements `remove` keeps. */
  function Survivors(key: Option<string>, latitude: Coord, longitude: Coord, d: seq<Item>): (r: seq<Item>)
  {
    if d == [] then []
    else (if Judge(key, latitude, longitude, d[0]) == Keep then [d[0]] else []) + Survivors(key, latitude, longitude, d[1..])
  }

  /** `remove` works element by element: it distributes over concatenation, so the order of kept elements is preserved. */
  lemma {:induction false} SurvivorsAppend(key: Option<string>, latitude: Coord, longitude: Coord, a: seq<Item>, b: seq<Item>)
    ensures Survivors(key, latitude, longitude, a + b)
         == Survivors(key, latitude, longitude, a) + Survivors(key, latitude, longitude, b)
  {
    if a == [] {
      assert a + b == b;
    } else {
      var h := if Judge(key, latitude, longitude, a[0]) == Keep then [a[0]] else [];
      assert (a + b)[0] == a[0] && (a + b)[1..] == a[1..] + b;
      SurvivorsAppend(key, latitude, longitude, a[1..], b);
      var sa, sb := Survivors(key, latitude, longitude, a[1..]), Survivors(key, latitude, longitude, b);
      assert h + (sa + sb) == (h + sa) + sb;
    }
  }

  /** `remove` keeps every element it does not match as often as it occurs, and no other element. */
  lemma {:induction false} SurvivorsCounts(key: Option<string>, latitude: Coord, longitude: Coord, d: seq<Item>, x: Item)
    ensures multiset(Survivors(key, latitude, longitude, d))[x]
         == if Judge(key, latitude, longitude, x) == Keep then multiset(d)[x] else 0
  {
    if d != [] {
      var head := if Judge(key, latitude, longitude, d[0]) == Keep then [d[0]] else [];
      assert Survivors(key, latitude, longitude, d) == head + Survivors(key, latitude, longitude, d[1..]);
      SurvivorsCounts(key, latitude, longitude, d[1..], x);
      assert d == [d[0]] + d[1..];
      assert multiset(d) == multiset([d[0]]) + multiset(d[1..]);
    }
  }

  /** Every element `remove` keeps is one it does not match. */
  lemma {:induction false} SurvivorsKept(key: Option<string>, latitude: Coord, longitude: Coord, d: seq<Item>)
    ensures forall i | 0 <= i < |Survivors(key, latitude, longitude, d)| ::
      Judge(key, latitude, longitude, Survivors(key, latitude, longitude, d)[i]) == Keep
  {
    if d != [] {
      SurvivorsKept(key, latitude, longitude, d[1..]);
    }
  }

  /** No element makes `remove` throw. */
  predicate NoFailure(key: Option<string>, latitude: Coord, longitude: Coord, d: seq<Item>) {
    forall j | 0 <= j < |d| :: Judge(key, latitude, longitude, d[j]) != Fails
  }

  /**
    After a successful `remove` no element is null, none lies at the removed
    position, and none carries the removed id.
   */
  lemma SurvivorsMatchNothing(key: Option<string>, latitude: Coord, longitude: Coord, d: seq<Item>)
    ensures forall x | x in Survivors(key, latitude, longitude, d) ::
      && x.Some?
      && !(x.value.latitude == latitude && x.value.longitude == longitude)
      && (key.Some? ==> x.value.id != key)
  {
    SurvivorsKept(key, latitude, longitude, d);
  }

  /**
    `remove`: walks the list from the back and drops every matching element.
    Without an element that makes `compareTo` throw it is a filter. With one,
    the exception leaves the elements behind the last such element filtered
    and the rest untouched. `key` is the id's text, `Key(id)`, as the Java
    method computes it on entry.
   */
  method Remove(data: Option<seq<Item>>, key: Option<string>, latitude: Coord, longitude: Coord) returns (out: Outcome)
    ensures data.None? ==> out == Done(None)
    ensures data.Some? && NoFailure(key, latitude, longitude, data.value) ==>
      out == Done(Some(Survivors(key, latitude, longitude, data.value)))
    ensures data.Some? && !NoFailure(key, latitude, longitude, data.value) ==>
      var j := LastFailure(key, latitude, longitude, data.value);
      out == Threw(NullPointer, Some(data.value[..j + 1] + Survivors(key, latitude, longitude, data.value[j + 1..])))
  {
    if data.None? {
      return Done(None);
    }
    var d0 := data.value;
    var d := d0;
    var i := |d0| - 1;
    while i >= 0
      invariant -1 <= i < |d0|
      invariant d == d0[..i + 1] + Survivors(key, latitude, longitude, d0[i + 1..])
      invariant LastFailure(key, latitude, longitude, d0) <= i
      decreases i + 1
    {
      RemoveStep(key, latitude, longitude, d0, i, d);
      FailureStep(key, latitude, longitude, d0, i);
      var v := Judge(key, latitude, longitude, d[i]);
      if v == Fails {
        return Threw(NullPointer, Some(d));
      }
      if v == Drop {
        d := d[..i] + d[i + 1..];
      }
      i := i - 1;
    }
    assert i == -1 && d0[0..] == d0;
    assert d0[..0] + Survivors(key, latitude, longitude, d0) == Survivors(key, latitude, longitude, d0);
    NoFailureIff(key, latitude, longitude, d0);
    return Done(Some(d));
  }

  // ---------------------------------------------------------------------
  // add
  // ---------------------------------------------------------------------

  /**
    The position of the last element that makes `remove` throw, or -1 when
    there is none; `remove` walks from the back, so this is where it throws.
   */
  function LastFailure(key: Option<string>, latitude: Coord, longitude: Coord, d: seq<Item>): (j: int)
    ensures -1 <= j < |d|
    ensures j >= 0 ==> Judge(key, latitude, longitude, d[j]) == Fails
    ensures forall l | j < l < |d| :: Judge(key, latitude, longitude, d[l]) != Fails
  {
    if d == [] then -1
    else if Judge(key, latitude, longitude, d[|d| - 1]) == Fails then |d| - 1
    else LastFailure(key, latitude, longitude, d[..|d| - 1])
  }

  /** One iteration of the loop in `remove`, at index `i`. */
  lemma RemoveStep(key: Option<string>, latitude: Coord, longitude: Coord, d0: seq<Item>, i: int, d: seq<Item>)
    requires 0 <= i < |d0|
    requires d == d0[..i + 1] + Survivors(key, latitude, longitude, d0[i + 1..])
    ensures i < |d| && d[i] == d0[i]
    ensures Judge(key, latitude, longitude, d0[i]) == Drop ==>
      d[..i] + d[i + 1..] == d0[..i] + Survivors(key, latitude, longitude, d0[i..])
    ensures Judge(key, latitude, longitude, d0[i]) == Keep ==>
      d == d0[..i] + Survivors(key, latitude, longitude, d0[i..])
  {
    var rest := Survivors(key, latitude, longitude, d0[i + 1..]);
    var pre := d0[..i];
    assert d0[..i + 1] == pre + [d0[i]];
    assert d == pre + ([d0[i]] + rest);
    assert d0[i..][0] == d0[i] && d0[i..][1..] == d0[i + 1..];
    if Judge(key, latitude, longitude, d0[i]) == Keep {
      assert Survivors(key, latitude, longitude, d0[i..]) == [d0[i]] + rest;
    } else {
      assert Survivors(key, latitude, longitude, d0[i..]) == rest;
      assert d[..i] == pre && d[i + 1..] == rest;
    }
  }

  /** Where the loop in `remove` stands against the last failing element, at index `i`. */
  lemma FailureStep(key: Option<string>, latitude: Coord, longitude: Coord, d0: seq<Item>, i: int)
    requires 0 <= i < |d0| && LastFailure(key, latitude, longitude, d0) <= i
    ensures Judge(key, latitude, longitude, d0[i]) == Fails ==>
      !NoFailure(key, latitude, longitude, d0) && LastFailure(key, latitude, longitude, d0) == i
    ensures Judge(key, latitude, longitude, d0[i]) != Fails ==> LastFailure(key, latitude, longitude, d0) <= i - 1
  {
  }

  /** `remove` throws at the last failing element, and only when there is one. */
  lemma NoFailureIff(key: Option<string>, latitude: Coord, longitude: Coord, d: seq<Item>)
    ensures NoFailure(key, latitude, longitude, d) <==> LastFailure(key, latitude, longitude, d) == -1
  {
  }

  /** The entry `add` appends. */
  function NewEntry(key: Option<string>, latitude: Coord, longitude: Coord): Item {
    Some(GeoPoint(key, latitude, longitude))
  }

  /** The newest `maxSize` elements of `s` (all of them when there are fewer). */
  function Newest<T>(s: seq<T>, maxSize: nat): (r: seq<T>)
    ensures |r| <= maxSize && (|s| <= maxSize ==> r == s)
    ensures |r| == if |s| < maxSize then |s| else maxSize
    ensures r == s[|s| - |r|..]
  {
    if |s| <= maxSize then s else s[|s| - maxSize..]
  }

  /** The list a successful `add` leaves: the survivors of `remove`, the new entry, cut to the newest `maxSize`. */
  function Added(key: Option<string>, latitude: Coord, longitude: Coord, d: seq<Item>, maxSize: nat): seq<Item> {
    Newest(Survivors(key, latitude, longitude, d) + [NewEntry(key, latitude, longitude)], maxSize)
  }

  /**
    `add`: removes every entry for the same id or position, appends the new
    entry, then drops entries from the front while the list is longer than
    `maxSize`. A negative `maxSize` empties the list and then makes
    `remove(0)` throw on the empty list.
   */
  method Add(data: Option<seq<Item>>, maxSize: int, id: Option<Long>, latitude: Coord, longitude: Coord)
    returns (out: Outcome)
    ensures var d0 := data.GetOr([]);
      var key := Key(id);
      && (!NoFailure(key, latitude, longitude, d0) ==>
            var j := LastFailure(key, latitude, longitude, d0);
            out == Threw(NullPointer, Some(d0[..j + 1] + Survivors(key, latitude, longitude, d0[j + 1..]))))
      && (NoFailure(key, latitude, longitude, d0) && maxSize < 0 ==> out == Threw(IndexOutOfBounds, Some([])))
      && (NoFailure(key, latitude, longitude, d0) && maxSize >= 0 ==>
            out == Done(Some(Added(key, latitude, longitude, d0, maxSize))))
  {
    var removed := Remove(data, Key(id), latitude, longitude);
    if removed.Threw? {
      return removed;
    }
    assert data.None? ==> NoFailure(Key(id), latitude, longitude, data.GetOr([]));
    ghost var all := Survivors(Key(id), latitude, longitude, data.GetOr([])) + [NewEntry(Key(id), latitude, longitude)];
    var d := removed.data.GetOr([]);
    d := d + [NewEntry(Key(id), latitude, longitude)];
    assert d == all;
    while |d| > maxSize
      invariant |d| <= |all| && d == all[|all| - |d|..]
      invariant |d| < |all| ==> |d| >= maxSize
      decreases |d|
    {
      if |d| == 0 {
        return Threw(IndexOutOfBounds, Some([]));
      }
      d := d[1..];
    }
    return Done(Some(d));
  }

  /** The newest entries of a list that ends in `e` still end in `e`. */
  lemma NewestKeepsLast(sv: seq<Item>, e: Item, maxSize: int, r: seq<Item>)
    requires maxSize >= 1 && r == Newest(sv + [e], maxSize)
    ensures 1 <= |r| <= maxSize && r[|r| - 1] == e
  {
    var all := sv + [e];
    assert r == all[|all| - |r|..] && |r| >= 1;
  }

  /** Every entry a successful `add` leaves, except the last, is a survivor of its `remove`. */
  lemma NewestKeepsKept(key: Option<string>, latitude: Coord, longitude: Coord, d: seq<Item>, maxSize: int)
    requires maxSize >= 1
    ensures var r := Added(key, latitude, longitude, d, maxSize);
      forall j | 0 <= j < |r| - 1 :: Judge(key, latitude, longitude, r[j]) == Keep
  {
    var sv := Survivors(key, latitude, longitude, d);
    SurvivorsKept(key, latitude, longitude, d);
    var all := sv + [NewEntry(key, latitude, longitude)];
    var r := Added(key, latitude, longitude, d, maxSize);
    var off := |all| - |r|;
    assert r == all[off..];
    forall j | 0 <= j < |r| - 1
      ensures Judge(key, latitude, longitude, r[j]) == Keep
    {
      assert r[j] == sv[off + j];
    }
  }

  /**
    After a successful `add` with room for at least one entry, the newest
    entry is the one added and no other entry lies at its position or, when
    it has an id, carries its id.
   */
  lemma AddedEntryIsNewestAndUnique(data: Option<seq<Item>>, maxSize: int, key: Option<string>,
                                    latitude: Coord, longitude: Coord)
    requires maxSize >= 1
    ensures var r := Added(key, latitude, longitude, data.GetOr([]), maxSize);
      1 <= |r| <= maxSize && r[|r| - 1] == NewEntry(key, latitude, longitude)
    ensures var r := Added(key, latitude, longitude, data.GetOr([]), maxSize);
      forall j | 0 <= j < |r| - 1 :: Judge(key, latitude, longitude, r[j]) == Keep
  {
    var e := NewEntry(key, latitude, longitude);
    var sv := Survivors(key, latitude, longitude, data.GetOr([]));
    NewestKeepsLast(sv, e, maxSize, Newest(sv + [e], maxSize));
    NewestKeepsKept(key, latitude, longitude, data.GetOr([]), maxSize);
  }

  // ---------------------------------------------------------------------
  // addKeysTo
  // ---------------------------------------------------------------------

  /** The id text of an element, when the element and its id are present and the id is not empty. */
  function IdText(item: Item): Option<string> {
    if item.Some? && item.value.id.Some? && |item.value.id.value| > 0 then item.value.id else None
  }

  /** The key an element contributes: its id, when present, non-empty and parsable. */
  function KeyOf(item: Item): (r: seq<Long>)
    ensures |r| <= 1
  {
    match IdText(item)
    case None => []
    case Some(t) => if ParseLong(t).Some? then [ParseLong(t).value] else []
  }

  /** An element `addKeysTo` keeps: one without a usable id text, or one whose id text parses. */
  predicate Usable(item: Item) {
    IdText(item).None? || ParseLong(IdText(item).value).Some?
  }

  /** The elements `addKeysTo` keeps, in order. */
  function UsableItems(d: seq<Item>): (r: seq<Item>)
  {
    if d == [] then [] else (if Usable(d[0]) then [d[0]] else []) + UsableItems(d[1..])
  }

  /** `addKeysTo` keeps every usable element as often as it occurs, and no other element. */
  lemma {:induction false} UsableItemsCounts(d: seq<Item>, x: Item)
    ensures multiset(UsableItems(d))[x] == if Usable(x) then multiset(d)[x] else 0
  {
    if d != [] {
      UsableItemsCounts(d[1..], x);
      assert d == [d[0]] + d[1..];
    }
  }

  /** The keys of the elements, newest (last) first. */
  function KeysNewestFirst(d: seq<Item>): seq<Long> {
    if d == [] then [] else KeysNewestFirst(d[1..]) + KeyOf(d[0])
  }

  /** Adds each key in turn to `dest` unless `dest` already holds it. */
  function Collect(dest: seq<Long>, ks: seq<Long>): seq<Long> {
    if ks == [] then dest
    else
      var c := Collect(dest, ks[..|ks| - 1]);
      if ks[|ks| - 1] in c then c else c + [ks[|ks| - 1]]
  }

  lemma KeysStep(d: seq<Item>, i: nat)
    requires i < |d|
    ensures KeysNewestFirst(d[i..]) == KeysNewestFirst(d[i + 1..]) + KeyOf(d[i])
  {
    assert d[i..][1..] == d[i + 1..];
  }

  lemma CollectStep(dest: seq<Long>, ks: seq<Long>, v: Long)
    ensures Collect(dest, ks + [v]) == if v in Collect(dest, ks) then Collect(dest, ks) else Collect(dest, ks) + [v]
  {
    assert (ks + [v])[..|ks|] == ks;
  }

  predicate NoDuplicates<T(==)>(s: seq<T>) {
    forall i, j | 0 <= i < j < |s| :: s[i] != s[j]
  }

  /**
    Collecting keeps what `dest` held at the front, holds exactly the keys
    of `dest` and `ks`, and never introduces a duplicate.
   */
  lemma {:induction false} CollectFacts(dest: seq<Long>, ks: seq<Long>)
    ensures |dest| <= |Collect(dest, ks)| && Collect(dest, ks)[..|dest|] == dest
    ensures forall v :: v in Collect(dest, ks) <==> v in dest || v in ks
    ensures NoDuplicates(dest) ==> NoDuplicates(Collect(dest, ks))
  {
    if ks != [] {
      var init := ks[..|ks| - 1];
      CollectFacts(dest, init);
      assert ks == init + [ks[|ks| - 1]];
    }
  }

  /** One step of `addKeysTo`'s backward walk over the elements, at index `i`. */
  lemma UsableStep(d0: seq<Item>, d: seq<Item>, i: nat)
    requires i < |d0| && d == d0[..i + 1] + UsableItems(d0[i + 1..])
    ensures i < |d| && d[i] == d0[i]
    ensures Usable(d0[i]) ==> d == d0[..i] + UsableItems(d0[i..])
    ensures !Usable(d0[i]) ==> d[..i] + d[i + 1..] == d0[..i] + UsableItems(d0[i..])
  {
    assert d0[i..][1..] == d0[i + 1..];
    assert d0[..i + 1] == d0[..i] + [d0[i]];
    if !Usable(d0[i]) {
      assert d[..i] == d0[..i];
      assert d[i + 1..] == UsableItems(d0[i + 1..]);
    }
  }

  /** One step of `addKeysTo`'s backward walk over the keys, at index `i`. */
  lemma CollectKeyStep(dest: seq<Long>, d0: seq<Item>, i: nat)
    requires i < |d0|
    ensures var c := Collect(dest, KeysNewestFirst(d0[i + 1..]));
      var t := IdText(d0[i]);
      Collect(dest, KeysNewestFirst(d0[i..])) ==
        if t.None? || ParseLong(t.value).None? || ParseLong(t.value).value in c then c
        else c + [ParseLong(t.value).value]
  {
    KeysStep(d0, i);
    var before := KeysNewestFirst(d0[i + 1..]);
    if KeyOf(d0[i]) == [] {
      assert before + KeyOf(d0[i]) == before;
    } else {
      CollectStep(dest, before, KeyOf(d0[i])[0]);
    }
  }

  /** The body of the loop in `addKeysTo`, at index `i`. */
  method VisitEntry(dest: seq<Long>, d0: seq<Item>, d: seq<Item>, out: seq<Long>, i: nat)
    returns (d': seq<Item>, out': seq<Long>)
    requires i < |d0| && d == d0[..i + 1] + UsableItems(d0[i + 1..])
    requires out == Collect(dest, KeysNewestFirst(d0[i + 1..]))
    ensures d' == d0[..i] + UsableItems(d0[i..])
    ensures out' == Collect(dest, KeysNewestFirst(d0[i..]))
  {
    UsableStep(d0, d, i);
    CollectKeyStep(dest, d0, i);
    d', out' := d, out;
    var id := IdText(d[i]);
    if id.Some? {
      var parsed := ParseLong(id.value);
      if parsed.Some? {
        if parsed.value !in out {
          out' := out + [parsed.value];
        }
      } else {
        d' := d[..i] + d[i + 1..];
      }
    }
  }

  /**
    `addKeysTo`: walks the list from the back, adds each parsable non-empty
    id to `dest` unless `dest` already holds it, and removes the elements
    whose non-empty id does not parse.
   */
  method AddKeysTo(data: Option<seq<Item>>, dest: seq<Long>) returns (data': Option<seq<Item>>, dest': seq<Long>)
    ensures data.None? ==> data' == None && dest' == dest
    ensures data.Some? ==> data' == Some(UsableItems(data.value))
    ensures data.Some? ==> dest' == Collect(dest, KeysNewestFirst(data.value))
  {
    if data.None? {
      return None, dest;
    }
    var d;
    d, dest' := AddKeysFrom(data.value, dest);
    data' := Some(d);
  }

  /** The loop of `addKeysTo` over a present list. */
  method AddKeysFrom(d0: seq<Item>, dest: seq<Long>) returns (d: seq<Item>, out: seq<Long>)
    ensures d == UsableItems(d0)
    ensures out == Collect(dest, KeysNewestFirst(d0))
  {
    d := d0;
    out := dest;
    var i := |d0| - 1;
    assert d0[..|d0|] == d0 && d0[|d0|..] == [];
    while i >= 0
      invariant -1 <= i < |d0|
      invariant d == d0[..i + 1] + UsableItems(d0[i + 1..])
      invariant out == Collect(dest, KeysNewestFirst(d0[i + 1..]))
      decreases i + 1
    {
      d, out := VisitEntry(dest, d0, d, out, i);
      i := i - 1;
    }
    assert i == -1 && d0[0..] == d0;
    assert d0[..0] + UsableItems(d0) == UsableItems(d0);
  }

  /** Every key collected comes from `dest` or from an element's parsable id, and every such id is collected. */
  lemma {:induction false} KeysNewestFirstMembers(d: seq<Item>, v: Long)
    ensures v in KeysNewestFirst(d) <==> exists j :: 0 <= j < |d| && KeyOf(d[j]) == [v]
  {
    if d != [] {
      KeysNewestFirstMembers(d[1..], v);
      if v in KeysNewestFirst(d[1..]) {
        var j :| 0 <= j < |d[1..]| && KeyOf(d[1..][j]) == [v];
        assert d[j + 1] == d[1..][j];
      }
      if exists j :: 0 <= j < |d| && KeyOf(d[j]) == [v] {
        var j :| 0 <= j < |d| && KeyOf(d[j]) == [v];
        if j > 0 {
          assert d[1..][j - 1] == d[j];
        }
      }
    }
  }

  /**
    The id of a successful `add` is exported by a following `addKeysTo`,
    and the entry itself survives it.
   */
  lemma AddedIdIsExported(data: Option<seq<Item>>, maxSize: int, n: Long, latitude: Coord, longitude: Coord,
                          dest: seq<Long>)
    requires maxSize >= 1
    ensures var r := Added(Key(Some(n)), latitude, longitude, data.GetOr([]), maxSize);
      n in Collect(dest, KeysNewestFirst(r))
    ensures var r := Added(Key(Some(n)), latitude, longitude, data.GetOr([]), maxSize);
      NewEntry(Key(Some(n)), latitude, longitude) in UsableItems(r)
  {
    var r := Added(Key(Some(n)), latitude, longitude, data.GetOr([]), maxSize);
    AddedEntryIsNewestAndUnique(data, maxSize, Key(Some(n)), latitude, longitude);
    var last := r[|r| - 1];
    ParseToString(n);
    assert IdText(last) == Some(ToString(n));
    assert KeyOf(last) == [n];
    KeysNewestFirstMembers(r, n);
    CollectFacts(dest, KeysNewestFirst(r));
    UsableItemsCounts(r, last);
    assert last in multiset(r);
  }
}

=== FILE: reference.dfy ===
/**
  A declarative description of what an uncancelled scan indexes, written
  without any threaded state: the batch an entry contributes on its own, and
  the preorder concatenation of those batches over the tree.
 */
module ScanReference {
  import opened Wrappers
  import opened FileTree
  import opened Walker

  /**
    The batch an entry issues by itself, if any: a listable directory hands
    over its image children, an image file hands over itself, and an entry
    without a canonical path hands over nothing.
   */
  function OwnBatch(env: Env, n: Node): (r: seq<Batch>)
    ensures |r| <= 1
    ensures forall b | b in r :: n.canonical == Some(b.folder)
  {
    match n.canonical
    case None => []
    case Some(p) =>
      match n
      case NonDir(name, _) => if env.isJpeg(name) then [Batch(p, [p])] else []
      case Dir(_, _, listable, children) =>
        if listable then [Batch(p, JpegPaths(env.isJpeg, p, children))] else []
  }

  /** True when the walk goes below `n`: a listable directory with a canonical path. */
  predicate Descends(n: Node) {
    n.Dir? && n.canonical.Some? && n.listable
  }

  /** Every batch issued for `n` and below, in preorder. */
  function Full(env: Env, n: Node): seq<Batch>
    decreases n
  {
    OwnBatch(env, n) + (if Descends(n) then FullChildren(env, n.children) else [])
  }

  /** The batches of the non-hidden sub-directories among `cs`, in listing order. */
  function FullChildren(env: Env, cs: seq<Node>): seq<Batch>
    decreases cs
  {
    if cs == [] then []
    else (if IsSubDir(cs[0]) then Full(env, cs[0]) else []) + FullChildren(env, cs[1..])
  }

  /** The batches of several start entries, in order. */
  function FullAll(env: Env, ns: seq<Node>): seq<Batch> {
    if ns == [] then [] else Full(env, ns[0]) + FullAll(env, ns[1..])
  }

  lemma {:induction false} FullAllAppend(env: Env, a: seq<Node>, b: seq<Node>)
    ensures FullAll(env, a + b) == FullAll(env, a) + FullAll(env, b)
  {
    if a == [] {
      assert a + b == b;
    } else {
      assert (a + b)[1..] == a[1..] + b;
      FullAllAppend(env, a[1..], b);
    }
  }

  lemma {:induction false} FullChildrenMember(env: Env, cs: seq<Node>, b: Batch)
    ensures b in FullChildren(env, cs) <==> exists i :: 0 <= i < |cs| && IsSubDir(cs[i]) && b in Full(env, cs[i])
  {
    if cs != [] {
      FullChildrenMember(env, cs[1..], b);
      assert forall i | 1 <= i < |cs| :: cs[i] == cs[1..][i - 1];
      if b in FullChildren(env, cs[1..]) {
        var i :| 0 <= i < |cs[1..]| && IsSubDir(cs[1..][i]) && b in Full(env, cs[1..][i]);
        assert cs[i + 1] == cs[1..][i];
      }
    }
  }

  /**
    The batches of an uncancelled scan started at `n` are exactly the own
    batches of the entries the walk reaches: hidden directories and
    everything below them contribute nothing, and every reached entry
    contributes its batch.
   */
  lemma {:induction false} FullReaches(env: Env, n: Node, b: Batch)
    ensures b in Full(env, n) <==> exists m :: Reaches(n, m) && b in OwnBatch(env, m)
    decreases n
  {
    if Descends(n) {
      FullChildrenMember(env, n.children, b);
      forall i | 0 <= i < |n.children| {
        FullReaches(env, n.children[i], b);
      }
      if b in FullChildren(env, n.children) {
        var i :| 0 <= i < |n.children| && IsSubDir(n.children[i]) && b in Full(env, n.children[i]);
        var m :| Reaches(n.children[i], m) && b in OwnBatch(env, m);
        assert Reaches(n, m);
      }
      if exists m :: Reaches(n, m) && b in OwnBatch(env, m) {
        var m :| Reaches(n, m) && b in OwnBatch(env, m);
        if n != m {
          var i :| 0 <= i < |n.children| && IsSubDir(n.children[i]) && Reaches(n.children[i], m);
          assert b in Full(env, n.children[i]);
        }
      }
    } else {
      assert forall m :: Reaches(n, m) ==> m == n;
    }
  }
}

=== FILE: walker.dfy ===
/**
  The depth-first walk of the recursive media scanner.

  The walk threads the scanner fields it writes (`mPaused`, `mCurrentFolder`,
  `mCount`) together with the number of cancellation checks made so far, and
  returns, besides the change count, the batches it handed to the indexer and
  the entries it stopped at because the scan was cancelled.
 */
module Walker {
  import opened Wrappers
  import opened FileTree

  /**
    The collaborators whose code is not part of this model: the image-name
    filter and the single-folder indexer, which answers the number of index
    entries a batch changed.
   */
  datatype Env = Env(isJpeg: string -> bool, index: seq<string> -> nat)

  /**
    The cancellation flag as the walker observes it. It is consulted once per
    entry that has a canonical path; `SetFrom(k)` means the consultations
    numbered `k` and later find it set. Once set it is never cleared.
   */
  datatype CancelFlag = NeverSet | SetFrom(step: nat)

  predicate IsCancelled(flag: CancelFlag, step: nat) {
    flag.SetFrom? && flag.step <= step
  }

  /** One call of the indexer: the folder shown as current and the files handed over. */
  datatype Batch = Batch(folder: string, files: seq<string>)

  /**
    The scanner fields the walk reads and writes, and the number of
    cancellation checks made so far.
   */
  datatype Fields = Fields(step: nat, paused: Option<seq<string>>, currentFolder: string, count: int)

  /**
    What a walk over some entries produced: the change count it returns, the
    indexer batches it issued, the entries it found cancelled (in order), and
    the scanner fields afterwards.
   */
  datatype Scanned = Scanned(changes: nat, batches: seq<Batch>, stopped: seq<Node>, out: Fields)

  /** One walk followed by another that starts from the first one's fields. */
  function Then(a: Scanned, b: Scanned): Scanned {
    Scanned(a.changes + b.changes, a.batches + b.batches, a.stopped + b.stopped, b.out)
  }

  /** Appends to the pending list when one was requested; a missing list stays missing. */
  function Record(paused: Option<seq<string>>, paths: seq<string>): Option<seq<string>> {
    if paused.Some? then Some(paused.value + paths) else None
  }

  /** The canonical paths of entries that all have one. */
  function Canonicals(ns: seq<Node>): (r: seq<string>)
    requires forall i | 0 <= i < |ns| :: ns[i].canonical.Some?
    ensures |r| == |ns|
    ensures forall i | 0 <= i < |ns| :: r[i] == ns[i].canonical.value
  {
    if ns == [] then [] else [ns[0].canonical.value] + Canonicals(ns[1..])
  }

  /** The total the indexer reports for a sequence of batches. */
  function SumChanges(env: Env, bs: seq<Batch>): nat {
    if bs == [] then 0 else env.index(bs[0].files) + SumChanges(env, bs[1..])
  }

  /** One indexer call: the folder becomes current and its result is added to the count. */
  function RunScanner(env: Env, f: Fields, parentPath: string, files: seq<string>): Scanned {
    var c := env.index(files);
    Scanned(c, [Batch(parentPath, files)], [], f.(currentFolder := parentPath, count := f.count + c))
  }

  /**
    One entry: skipped without a cancellation check when it has no canonical
    path; recorded as pending when the check finds the scan cancelled; else a
    listable directory issues one batch of its image children and then walks
    its non-hidden sub-directories, and an image file issues a batch of itself.
   */
  function Scan(env: Env, flag: CancelFlag, n: Node, f: Fields): Scanned
    decreases n
  {
    match n.canonical
    case None => Scanned(0, [], [], f)
    case Some(p) =>
      if IsCancelled(flag, f.step) then
        Scanned(0, [], [n], f.(step := f.step + 1, paused := Record(f.paused, [p])))
      else
        var f1 := f.(step := f.step + 1);
        match n
        case NonDir(name, _) =>
          if env.isJpeg(name) then RunScanner(env, f1, p, [p]) else Scanned(0, [], [], f1)
        case Dir(_, _, listable, children) =>
          if !listable then Scanned(0, [], [], f1)
          else
            var b := RunScanner(env, f1, p, JpegPaths(env.isJpeg, p, children));
            Then(b, ScanChildren(env, flag, children, b.out))
  }

  /** The children of a listed directory, in listing order; only sub-directories that are not hidden are walked. */
  function ScanChildren(env: Env, flag: CancelFlag, cs: seq<Node>, f: Fields): Scanned
    decreases cs
  {
    if cs == [] then Scanned(0, [], [], f)
    else
      var h := if IsSubDir(cs[0]) then Scan(env, flag, cs[0], f) else Scanned(0, [], [], f);
      Then(h, ScanChildren(env, flag, cs[1..], h.out))
  }

  /** Several start entries, in order; the hidden rule does not apply to them. */
  function ScanNodes(env: Env, flag: CancelFlag, ns: seq<Node>, f: Fields): Scanned
    decreases ns
  {
    if ns == [] then Scanned(0, [], [], f)
    else
      var h := Scan(env, flag, ns[0], f);
      Then(h, ScanNodes(env, flag, ns[1..], h.out))
  }

  /** The request as the background task receives it: arrays of paths, where an array or a path may be null. */
  type Request = seq<Option<seq<Option<string>>>>

  /** The paths of a request that are walked: the non-null, non-empty ones, in order. */
  function RootPaths(pathNames: Request): (r: seq<string>)
    ensures forall i | 0 <= i < |r| :: |r[i]| > 0
  {
    if pathNames == [] then []
    else (if pathNames[0].Some? then NonEmptyPaths(pathNames[0].value) else []) + RootPaths(pathNames[1..])
  }

  /** The non-null, non-empty paths of one array, in order. */
  function NonEmptyPaths(paths: seq<Option<string>>): (r: seq<string>)
    ensures forall i | 0 <= i < |r| :: |r[i]| > 0
  {
    if paths == [] then []
    else (if paths[0].Some? && |paths[0].value| > 0 then [paths[0].value] else []) + NonEmptyPaths(paths[1..])
  }

  /** Keeping the paths of one array distributes over concatenation: kept paths stay in order, each as often as it occurs. */
  lemma {:induction false} NonEmptyPathsAppend(a: seq<Option<string>>, b: seq<Option<string>>)
    ensures NonEmptyPaths(a + b) == NonEmptyPaths(a) + NonEmptyPaths(b)
  {
    if a == [] {
      assert a + b == b;
    } else {
      assert (a + b)[0] == a[0] && (a + b)[1..] == a[1..] + b;
      NonEmptyPathsAppend(a[1..], b);
    }
  }

  /** The walked paths of a request distribute over concatenation: arrays are walked in order, and paths within them in order. */
  lemma {:induction false} RootPathsAppend(a: Request, b: Request)
    ensures RootPaths(a + b) == RootPaths(a) + RootPaths(b)
  {
    if a == [] {
      assert a + b == b;
    } else {
      assert (a + b)[0] == a[0] && (a + b)[1..] == a[1..] + b;
      RootPathsAppend(a[1..], b);
    }
  }

  /** A path of an array is walked exactly when it is present and not empty. */
  lemma {:induction false} NonEmptyPathsMembers(paths: seq<Option<string>>, s: string)
    ensures s in NonEmptyPaths(paths) <==> exists j :: 0 <= j < |paths| && paths[j] == Some(s) && |s| > 0
  {
    if paths != [] {
      NonEmptyPathsMembers(paths[1..], s);
      if exists j :: 0 <= j < |paths[1..]| && paths[1..][j] == Some(s) && |s| > 0 {
        var j :| 0 <= j < |paths[1..]| && paths[1..][j] == Some(s) && |s| > 0;
        assert paths[j + 1] == paths[1..][j];
      }
      if exists j :: 0 <= j < |paths| && paths[j] == Some(s) && |s| > 0 {
        var j :| 0 <= j < |paths| && paths[j] == Some(s) && |s| > 0;
        if j > 0 {
          assert paths[1..][j - 1] == paths[j];
        }
      }
    }
  }

  /**
    A path is walked exactly when it is a present, non-empty path inside a
    present array of the request.
   */
  lemma {:induction false} RootPathsMembers(pathNames: Request, s: string)
    ensures s in RootPaths(pathNames) <==>
      exists i, j :: 0 <= i < |pathNames| && pathNames[i].Some? && 0 <= j < |pathNames[i].value|
                     && pathNames[i].value[j] == Some(s) && |s| > 0
  {
    if pathNames != [] {
      RootPathsMembers(pathNames[1..], s);
      if pathNames[0].Some? {
        NonEmptyPathsMembers(pathNames[0].value, s);
      }
      if exists i, j :: 0 <= i < |pathNames[1..]| && pathNames[1..][i].Some? && 0 <= j < |pathNames[1..][i].value|
                        && pathNames[1..][i].value[j] == Some(s) && |s| > 0 {
        var i, j :| 0 <= i < |pathNames[1..]| && pathNames[1..][i].Some? && 0 <= j < |pathNames[1..][i].value|
                    && pathNames[1..][i].value[j] == Some(s) && |s| > 0;
        assert pathNames[i + 1] == pathNames[1..][i];
      }
      if exists i, j :: 0 <= i < |pathNames| && pathNames[i].Some? && 0 <= j < |pathNames[i].value|
                        && pathNames[i].value[j] == Some(s) && |s| > 0 {
        var i, j :| 0 <= i < |pathNames| && pathNames[i].Some? && 0 <= j < |pathNames[i].value|
                    && pathNames[i].value[j] == Some(s) && |s| > 0;
        if i > 0 {
          assert pathNames[1..][i - 1] == pathNames[i];
        }
      }
    }
  }

  /** Each path of `ps` turned into the entry it names. */
  function Resolve(resolve: string -> Node, ps: seq<string>): (r: seq<Node>)
    ensures |r| == |ps|
    ensures forall i | 0 <= i < |ps| :: r[i] == resolve(ps[i])
  {
    if ps == [] then [] else [resolve(ps[0])] + Resolve(resolve, ps[1..])
  }

  /**
    The background task: every walked path of the request is resolved to the
    entry it names and walked in turn; the result is the sum over all of them.
   */
  function DoInBackground(env: Env, flag: CancelFlag, resolve: string -> Node, pathNames: Request, f: Fields): Scanned {
    ScanNodes(env, flag, Resolve(resolve, RootPaths(pathNames)), f)
  }

  /** A request holding one array: the way a scanner is started from a pending list. */
  function AsRequest(paths: seq<string>): (r: Request)
    ensures |r| == 1 && r[0].Some? && |r[0].value| == |paths|
    ensures forall j | 0 <= j < |paths| :: r[0].value[j] == Some(paths[j])
  {
    [Some(seq(|paths|, j requires 0 <= j < |paths| => Some(paths[j])))]
  }
}

=== FILE: walkfacts.dfy ===
/**
  What the walk guarantees: the bookkeeping of the scanner fields, and how a
  cancelled walk splits the work of an uncancelled one into the batches it
  issued and the entries it left pending.
 */
module WalkFacts {
  import opened Wrappers
  import opened FileTree
  import opened Walker
  import opened ScanReference

  // ---------------------------------------------------------------------
  // Bookkeeping: count, current folder, pending list
  // ---------------------------------------------------------------------

  lemma {:induction false} SumChangesAppend(env: Env, a: seq<Batch>, b: seq<Batch>)
    ensures SumChanges(env, a + b) == SumChanges(env, a) + SumChanges(env, b)
  {
    if a == [] {
      assert a + b == b;
    } else {
      assert (a + b)[1..] == a[1..] + b;
      SumChangesAppend(env, a[1..], b);
    }
  }

  lemma CanonicalsAppend(a: seq<Node>, b: seq<Node>)
    requires forall i | 0 <= i < |a| :: a[i].canonical.Some?
    requires forall i | 0 <= i < |b| :: b[i].canonical.Some?
    ensures forall i | 0 <= i < |a + b| :: (a + b)[i].canonical.Some?
    ensures Canonicals(a + b) == Canonicals(a) + Canonicals(b)
  {
  }

  /**
    The bookkeeping a walk keeps: the change count it returns is the sum of
    the indexer's results over the batches it issued, `mCount` grows by
    exactly that amount, the current folder is the folder of the last batch
    issued (unchanged when none was), and the pending list, when one was
    requested, grows by the canonical paths of the entries found cancelled.
   */
  predicate Accounts(env: Env, f: Fields, r: Scanned) {
    && r.changes == SumChanges(env, r.batches)
    && r.out.count == f.count + r.changes
    && r.out.step >= f.step
    && (forall i | 0 <= i < |r.stopped| :: r.stopped[i].canonical.Some?)
    && r.out.paused == Record(f.paused, Canonicals(r.stopped))
    && r.out.currentFolder == (if r.batches == [] then f.currentFolder else r.batches[|r.batches| - 1].folder)
  }

  lemma ThenAccounts(env: Env, f: Fields, a: Scanned, b: Scanned)
    requires Accounts(env, f, a) && Accounts(env, a.out, b)
    ensures Accounts(env, f, Then(a, b))
  {
    SumChangesAppend(env, a.batches, b.batches);
    ThenPaused(f.paused, a.stopped, b.stopped, a.out.paused, b.out.paused);
    ThenFolder(f.currentFolder, a.batches, b.batches, a.out.currentFolder, b.out.currentFolder);
  }

  /** The pending list after two walks grows by both walks' cancelled entries, in order. */
  lemma ThenPaused(p0: Option<seq<string>>, sa: seq<Node>, sb: seq<Node>, pa: Option<seq<string>>, pb: Option<seq<string>>)
    requires forall i | 0 <= i < |sa| :: sa[i].canonical.Some?
    requires forall i | 0 <= i < |sb| :: sb[i].canonical.Some?
    requires pa == Record(p0, Canonicals(sa)) && pb == Record(pa, Canonicals(sb))
    ensures forall i | 0 <= i < |sa + sb| :: (sa + sb)[i].canonical.Some?
    ensures pb == Record(p0, Canonicals(sa + sb))
  {
    CanonicalsAppend(sa, sb);
    if p0.Some? {
      RecordTwice(p0.value, Canonicals(sa), Canonicals(sb), pa, pb);
    }
  }

  /** Appending to a present pending list twice appends both parts, in order. */
  lemma RecordTwice(p0: seq<string>, ca: seq<string>, cb: seq<string>, pa: Option<seq<string>>, pb: Option<seq<string>>)
    requires pa == Record(Some(p0), ca) && pb == Record(pa, cb)
    ensures pb == Record(Some(p0), ca + cb)
  {
    assert p0 + ca + cb == p0 + (ca + cb);
  }

  /** The current folder after two walks is that of the last batch of either, or the one before both. */
  lemma ThenFolder(c0: string, ba: seq<Batch>, bb: seq<Batch>, ca: string, cb: string)
    requires ca == (if ba == [] then c0 else ba[|ba| - 1].folder)
    requires cb == (if bb == [] then ca else bb[|bb| - 1].folder)
    ensures cb == (if ba + bb == [] then c0 else (ba + bb)[|ba + bb| - 1].folder)
  {
    if bb != [] {
      assert (ba + bb)[|ba + bb| - 1] == bb[|bb| - 1];
    } else {
      assert ba + bb == ba;
    }
  }

  /**
    `runScanner`: the folder becomes the current one and `mCount` grows by the
    indexer's result, so it never decreases.
   */
  lemma RunScannerAccounts(env: Env, f: Fields, parentPath: string, files: seq<string>)
    ensures Accounts(env, f, RunScanner(env, f, parentPath, files))
    ensures RunScanner(env, f, parentPath, files).out.count >= f.count
    ensures RunScanner(env, f, parentPath, files).out.currentFolder == parentPath
  {
    assert SumChanges(env, [Batch(parentPath, files)]) == env.index(files);
    assert Record(f.paused, Canonicals([])) == f.paused by {
      if f.paused.Some? { assert f.paused.value + [] == f.paused.value; }
    }
  }

  /** A step that issues nothing and finds nothing cancelled keeps the bookkeeping. */
  lemma NothingAccounts(env: Env, f: Fields, g: Fields)
    requires g.step >= f.step && g.paused == f.paused && g.currentFolder == f.currentFolder && g.count == f.count
    ensures Accounts(env, f, Scanned(0, [], [], g))
  {
    assert Record(f.paused, Canonicals([])) == f.paused by {
      if f.paused.Some? { assert f.paused.value + [] == f.paused.value; }
    }
  }

  /** An entry found cancelled is recorded as pending, and nothing else changes. */
  lemma StopAccounts(env: Env, f: Fields, n: Node, p: string)
    requires n.canonical == Some(p)
    ensures Accounts(env, f, Scanned(0, [], [n], f.(step := f.step + 1, paused := Record(f.paused, [p]))))
  {
    assert Canonicals([n]) == [p];
  }

  lemma {:induction false} ScanAccounts(env: Env, flag: CancelFlag, n: Node, f: Fields)
    ensures Accounts(env, f, Scan(env, flag, n, f))
    decreases n
  {
    match n.canonical
    case None =>
      NothingAccounts(env, f, f);
    case Some(p) =>
      if IsCancelled(flag, f.step) {
        StopAccounts(env, f, n, p);
      } else {
        var f1 := f.(step := f.step + 1);
        match n
        case NonDir(name, _) =>
          if env.isJpeg(name) {
            RunScannerAccounts(env, f1, p, [p]);
          } else {
            NothingAccounts(env, f, f1);
          }
        case Dir(_, _, listable, children) =>
          if listable {
            var b := RunScanner(env, f1, p, JpegPaths(env.isJpeg, p, children));
            RunScannerAccounts(env, f1, p, JpegPaths(env.isJpeg, p, children));
            ChildrenAccounts(env, flag, children, b.out);
            ThenAccounts(env, f1, b, ScanChildren(env, flag, children, b.out));
            assert Scan(env, flag, n, f) == Then(b, ScanChildren(env, flag, children, b.out));
          } else {
            NothingAccounts(env, f, f1);
          }
      }
  }

  lemma {:induction false} ChildrenAccounts(env: Env, flag: CancelFlag, cs: seq<Node>, f: Fields)
    ensures Accounts(env, f, ScanChildren(env, flag, cs, f))
    decreases cs
  {
    assert Record(f.paused, Canonicals([])) == f.paused by {
      if f.paused.Some? { assert f.paused.value + [] == f.paused.value; }
    }
    if cs != [] {
      var h := if IsSubDir(cs[0]) then Scan(env, flag, cs[0], f) else Scanned(0, [], [], f);
      if IsSubDir(cs[0]) {
        ScanAccounts(env, flag, cs[0], f);
      }
      ChildrenAccounts(env, flag, cs[1..], h.out);
      ThenAccounts(env, f, h, ScanChildren(env, flag, cs[1..], h.out));
    }
  }

  /**
    The walk over the start entries keeps the bookkeeping: the returned total
    is the sum of all batch results and `mCount` grows by exactly that total.
   */
  lemma {:induction false} NodesAccounts(env: Env, flag: CancelFlag, ns: seq<Node>, f: Fields)
    ensures Accounts(env, f, ScanNodes(env, flag, ns, f))
    decreases ns
  {
    assert Record(f.paused, Canonicals([])) == f.paused by {
      if f.paused.Some? { assert f.paused.value + [] == f.paused.value; }
    }
    if ns != [] {
      var h := Scan(env, flag, ns[0], f);
      ScanAccounts(env, flag, ns[0], f);
      NodesAccounts(env, flag, ns[1..], h.out);
      ThenAccounts(env, f, h, ScanNodes(env, flag, ns[1..], h.out));
    }
  }

  // ---------------------------------------------------------------------
  // Cancellation splits the work
  // ---------------------------------------------------------------------

  /**
    How a walk relates to `full`, the batches the same walk issues when never
    cancelled: once the flag is observed no further batch is issued, and the
    batches issued followed by a full walk over the entries found cancelled
    are exactly `full` -- nothing is lost and nothing is indexed twice.
   */
  predicate Splits(env: Env, flag: CancelFlag, f: Fields, r: Scanned, full: seq<Batch>) {
    && r.out.step >= f.step
    && (r.stopped != [] ==> IsCancelled(flag, r.out.step))
    && (IsCancelled(flag, f.step) ==> r.batches == [])
    && r.batches + FullAll(env, r.stopped) == full
  }

  lemma ThenSplits(env: Env, flag: CancelFlag, f: Fields, a: Scanned, fa: seq<Batch>, b: Scanned, fb: seq<Batch>)
    requires Splits(env, flag, f, a, fa) && Splits(env, flag, a.out, b, fb)
    ensures Splits(env, flag, f, Then(a, b), fa + fb)
  {
    var r := Then(a, b);
    var sa, sb := FullAll(env, a.stopped), FullAll(env, b.stopped);
    FullAllAppend(env, a.stopped, b.stopped);
    assert FullAll(env, r.stopped) == sa + sb;
    assert a.stopped != [] ==> b.batches == [] by {
      if a.stopped != [] {
        assert IsCancelled(flag, a.out.step);
      }
    }
    JoinBatches(a.batches, sa, fa, b.batches, sb, fb, a.stopped == []);
  }

  /** The sequence algebra behind `ThenSplits`. */
  lemma JoinBatches<T>(ab: seq<T>, sa: seq<T>, fa: seq<T>, bb: seq<T>, sb: seq<T>, fb: seq<T>, aDone: bool)
    requires ab + sa == fa && bb + sb == fb
    requires aDone ==> sa == []
    requires !aDone ==> bb == []
    ensures (ab + bb) + (sa + sb) == fa + fb
  {
    if aDone {
      assert (ab + bb) + (sa + sb) == ab + (bb + sb);
    } else {
      assert (ab + bb) + (sa + sb) == (ab + sa) + sb;
    }
  }

  lemma {:induction false} ScanSplits(env: Env, flag: CancelFlag, n: Node, f: Fields)
    ensures Splits(env, flag, f, Scan(env, flag, n, f), Full(env, n))
    ensures forall m | m in Scan(env, flag, n, f).stopped :: Reaches(n, m)
    decreases n
  {
    match n.canonical
    case None =>
    case Some(p) =>
      if IsCancelled(flag, f.step) {
        assert FullAll(env, [n]) == Full(env, n);
      } else {
        var f1 := f.(step := f.step + 1);
        match n
        case NonDir(name, _) =>
        case Dir(_, _, listable, children) =>
          if listable {
            var b := RunScanner(env, f1, p, JpegPaths(env.isJpeg, p, children));
            var c := ScanChildren(env, flag, children, b.out);
            ChildrenSplits(env, flag, children, b.out);
            assert Splits(env, flag, f, b, OwnBatch(env, n));
            ThenSplits(env, flag, f, b, OwnBatch(env, n), c, FullChildren(env, children));
            forall m | m in c.stopped
              ensures Reaches(n, m)
            {
              var i :| 0 <= i < |children| && IsSubDir(children[i]) && Reaches(children[i], m);
            }
          }
      }
  }

  lemma {:induction false} ChildrenSplits(env: Env, flag: CancelFlag, cs: seq<Node>, f: Fields)
    ensures Splits(env, flag, f, ScanChildren(env, flag, cs, f), FullChildren(env, cs))
    ensures forall m | m in ScanChildren(env, flag, cs, f).stopped ::
      exists i :: 0 <= i < |cs| && IsSubDir(cs[i]) && Reaches(cs[i], m)
    decreases cs
  {
    if cs != [] {
      var h := if IsSubDir(cs[0]) then Scan(env, flag, cs[0], f) else Scanned(0, [], [], f);
      var fh := if IsSubDir(cs[0]) then Full(env, cs[0]) else [];
      if IsSubDir(cs[0]) {
        ScanSplits(env, flag, cs[0], f);
      }
      var t := ScanChildren(env, flag, cs[1..], h.out);
      ChildrenSplits(env, flag, cs[1..], h.out);
      ThenSplits(env, flag, f, h, fh, t, FullChildren(env, cs[1..]));
      forall m | m in t.stopped
        ensures exists i :: 0 <= i < |cs| && IsSubDir(cs[i]) && Reaches(cs[i], m)
      {
        var i :| 0 <= i < |cs[1..]| && IsSubDir(cs[1..][i]) && Reaches(cs[1..][i], m);
        assert cs[i + 1] == cs[1..][i];
      }
    }
  }

  /**
    The walk over the start entries, cancelled from any point on: the batches
    it issued, followed by an uncancelled walk over the entries it found
    cancelled, are exactly the batches of an uncancelled walk over the start
    entries; every entry found cancelled is reached from a start entry.
   */
  lemma {:induction false} NodesSplit(env: Env, flag: CancelFlag, ns: seq<Node>, f: Fields)
    ensures Splits(env, flag, f, ScanNodes(env, flag, ns, f), FullAll(env, ns))
    ensures forall m | m in ScanNodes(env, flag, ns, f).stopped :: exists i :: 0 <= i < |ns| && Reaches(ns[i], m)
    decreases ns
  {
    if ns != [] {
      var h := Scan(env, flag, ns[0], f);
      ScanSplits(env, flag, ns[0], f);
      var t := ScanNodes(env, flag, ns[1..], h.out);
      NodesSplit(env, flag, ns[1..], h.out);
      ThenSplits(env, flag, f, h, Full(env, ns[0]), t, FullAll(env, ns[1..]));
      forall m | m in t.stopped
        ensures exists i :: 0 <= i < |ns| && Reaches(ns[i], m)
      {
        var i :| 0 <= i < |ns[1..]| && Reaches(ns[1..][i], m);
        assert ns[i + 1] == ns[1..][i];
      }
    }
  }

  /**
    An uncancelled walk over start entries issues exactly the reference
    batches, stops nowhere, and returns the sum of the indexer's results
    over those batches.
   */
  lemma UncancelledWalk(env: Env, ns: seq<Node>, f: Fields)
    ensures ScanNodes(env, NeverSet, ns, f).stopped == []
    ensures ScanNodes(env, NeverSet, ns, f).batches == FullAll(env, ns)
    ensures ScanNodes(env, NeverSet, ns, f).changes == SumChanges(env, FullAll(env, ns))
  {
    NodesSplit(env, NeverSet, ns, f);
    NodesAccounts(env, NeverSet, ns, f);
  }
}

=== FILE: wrappers.dfy ===
/** The Option datatype used wherever the Java code works with a nullable reference. */
module Wrappers {

  /** `None` plays the role of Java's `null`. */
  datatype Option<+T> = None | Some(value: T) {

    /** Returns the value held in `Some`, or `default` for `None`. */
    function GetOr(default: T): T {
      match this
      case Some(v) => v
      case None => default
    }
  }
}
